=== FILE: README.md ===
# PowerTrading intra-day report core in Dafny

This project models the core of the PowerTrading service. The service extracts the day's power trades, aggregates their volumes by settlement period, and writes an intra-day CSV report on a fixed schedule.

- **`PowerPositions`** (power_position.dfy) models a report row and the period-to-hour rule. Period 1 starts at 23:00 of the previous day. Every other period p starts at hour p − 2, using C#'s wrapping `int` subtraction.
- **`PowerPositionAggregator`** (aggregator.dfy) models both aggregators:
  - the LINQ pipeline: SelectMany, then GroupBy, then ToDictionary, then `Enumerable.Range(1, 24)` with TryGetValue-or-0;
  - the array version, with its 25 slots and its `(uint)(p - 1) < 24` range check.
  
  `SumFor` is the reference definition, and each version is proved to meet it. The array version is proved equal to the LINQ version on every input.
- **`NumberFormat`** (number_format.dfy) models the formats the exporter uses: "D<n>" for the hour, "F<n>" on integral values for the volume, and the zero-padded date fields. The volume is formatted with the invariant culture. The hour's "D2" sits in an interpolated string and so uses the current culture, which gives the same text for every hour 0..23. Each format has a parser, and each parser is proved to invert its format.
- **`CsvExporter`** (csv_exporter.dfy) models `GenerateFileName` and `GetCsvContent`:
  - the file name is always 31 characters and can be read back;
  - the content has a header, then one record per position, in order;
  - each record reads back as its hour and volume;
  - the text has exactly |positions| + 1 line feeds;
  - with a separator holding neither '\r' nor '\n', the text read back the way `File.ReadAllLines` splits it is exactly the header and the records (`ContentReadsBack`).
- **`IntraDayReport`** (intra_day_report.dfy) composes the transform step with the load step. Every report has 25 lines, and they read back as hours 23, 0, …, 22, each with its period's total volume.
- **`BusinessCriticalWorker`** (business_critical_worker.dfy) models the scheduling loop and the queue-draining pass as one sequential state machine. The events are:
  - the loop's `while` check and the enqueue after it (`Tick`);
  - the loop's call of `StartProcessorIfNotRunningAsync` (`Launch`);
  - the end of the loop's `Task.Delay` (`Wake`);
  - a dequeue that starts a `WorkAsync` call (`Take`);
  - the end of that call (`Finish`);
  - the host cancelling the stopping token (`Cancel`);
  - an exception out of the loop (`Interrupt`).
  
  Each event is taken as one atomic step. The events are finer than the stretches the source runs without yielding. When the launch lock is free and the awaited tasks are already complete, the `while` check and enqueue, the launch, and the new pass's gate, dequeue and `WorkAsync` call all run as one uninterrupted stretch of the loop, but the model splits that stretch into `Tick`, `Launch` and `Take`. The model therefore allows more orderings than the source can produce, such as a `Cancel` between `Launch` and `Take`. A property proved for every ordering of the events holds for the source's orderings too. This includes a cancellation between the `while` check and the launch lock (`CancelBeforeLaunchStrandsRun`). Races finer than one event are listed under "Left out".

  An invariant preserved by every event gives:
  - the gate is held exactly while a pass is active;
  - every enqueued run is handled at most once, in enqueue order.

  That at most one `WorkAsync` call is awaited at a time is not a consequence of the invariant. It holds by construction, because the state has a single `inFlight` slot and `Take` starts a call only when that slot is empty.
  
  Lemmas about whole passes show that a failed run does not stop the drain. They also show that a cancelled run ends the pass with the remaining runs still queued and the gate released.
- **Supporting modules:**
  - `Wrappers`: `Option`, `Result`, and `ArgumentNullException` as a value;
  - `BoundedInts`: the 32-bit `int`, unchecked wrap-around, and the `(uint)` cast;
  - `Clock`: the fields of `DateTime`;
  - `Text`: character counting, and the way `File.ReadAllLines` splits a text into lines.

How the model represents the source:
- A `null` argument is the `None` input. The `ArgumentNullException` is a `Failure(ArgumentNull(name))` result, named with the parameter name `nameof` yields.
- The LINQ `AggregateByHour` takes `runId` and `runTime` in its signature but never reads them. The tests and `IntraDayReportService` call a one-argument form, and the model has that form.
- Any two creation times in the same minute give the same report file name (`FileNameCollision`). A later run in that minute overwrites the earlier report.

## Model

| member | source | states |
|---|---|---|
| PowerPositions.Hour | PowerTrading.Domain/PowerPosition.cs:4 | period 1 is hour 23. Any other period p is hour p − 2 when that does not overflow. Every period of a day (1..24) gets an hour of the day (0..23). |
| PowerPositions.HourRoundTrip | PowerTrading.Domain/PowerPosition.cs:4 | on periods 1..24, the hour a period gets leads back to that period. |
| PowerPositions.PeriodRoundTrip | PowerTrading.Domain/PowerPosition.cs:4 | every hour 0..23 is the hour of exactly the period PeriodOfHour names. |
| PowerPositions.HourInjective | PowerTrading.Domain/PowerPosition.cs:4 | two periods of a day share an hour if and only if they are the same period. |
| PowerPositions.HourWrapsAtIntMinimum | PowerTrading.Domain/PowerPosition.cs:4 | the unchecked `Period - 2` wraps: int.MinValue maps to int.MaxValue − 1. |
| BoundedInts.Wrap | PowerTrading.Domain/PowerPosition.cs:4 | unchecked `int` arithmetic: a result in range is itself, and any other result differs from the exact value by a multiple of 2^32. The same wrapping applies to `p - 1` in PowerTrading.Domain/PowerPositionAggregator.cs:40. |
| BoundedInts.ToUint | PowerTrading.Domain/PowerPositionAggregator.cs:40 | the `(uint)` cast keeps non-negative values and adds 2^32 to negative ones. |
| PowerPositionAggregator.Flatten | PowerTrading.Domain/PowerPositionAggregator.cs:11 | SelectMany keeps every period entry of every trade and adds no entry that some trade does not hold. This contract is about membership only. The order and the repeats are fixed by FlattenOne and FlattenAppend together. |
| PowerPositionAggregator.FlattenOne | PowerTrading.Domain/PowerPositionAggregator.cs:11 | SelectMany over one trade is that trade's entries, in order and with their repeats. With FlattenAppend this determines Flatten on every list of trades. |
| PowerPositionAggregator.FlattenAppend | PowerTrading.Domain/PowerPositionAggregator.cs:11 | SelectMany over concatenated trade lists is the concatenation of the two flattenings. |
| PowerPositionAggregator.SumForAppend | PowerTrading.Domain/PowerPositionAggregator.cs:12-15 | a period's sum over concatenated entries is the sum of the two parts' sums. |
| PowerPositionAggregator.SumForAbsent | PowerTrading.Domain/PowerPositionAggregator.cs:20 | a period that no entry mentions sums to 0. |
| PowerPositionAggregator.HourlyVolumes | PowerTrading.Domain/PowerPositionAggregator.cs:10-15 | the dictionary has a key for exactly the periods that occur, and each key holds the total volume of its period. |
| PowerPositionAggregator.VolumeOrZero | PowerTrading.Domain/PowerPositionAggregator.cs:20 | the TryGetValue-or-0 lookup in the grouped dictionary is the period's total over the entries the dictionary was built from, 0 included for a missing period. |
| PowerPositionAggregator.AggregateByHour | PowerTrading.Domain/PowerPositionAggregator.cs:6-25 | null trades give ArgumentNull("trades"). Otherwise there are exactly 24 positions, and position i has period i + 1 and the sum of every entry for that period, or 0 when no entry has it. |
| PowerPositionAggregator.BoundsCheckIsRange | PowerTrading.Domain/PowerPositionAggregator.cs:40 | `(uint)(p - 1) < 24` holds if and only if 1 <= p <= 24, for every int p including int.MinValue. |
| PowerPositionAggregator.AddTrade | PowerTrading.Domain/PowerPositionAggregator.cs:36-44 | after one trade's loop, slot p (for p in 1..24) has grown by that trade's sum for p. Slot 0 is untouched. |
| PowerPositionAggregator.SlotsToPositions | PowerTrading.Domain/PowerPositionAggregator.cs:47-53 | it builds 24 positions, where position j has period j + 1 and the volume of slot j + 1. |
| PowerPositionAggregator.AggregateByHourExperiment | PowerTrading.Domain/PowerPositionAggregator.cs:27-56 | the array version returns exactly what the LINQ version returns on every input, null included. |
| PowerPositionAggregator.MissingPeriodIsZero | PowerTrading.Domain/PowerPositionAggregator.cs:20 | a period 1..24 that no trade mentions is reported with volume 0. |
| PowerPositionAggregator.OutOfRangeEntriesIgnored | PowerTrading.Domain/PowerPositionAggregator.cs:17-22 | adding trades whose periods all lie outside 1..24 does not change the result. |
| PowerPositionAggregator.SumsAcrossTrades | PowerTrading.Tests/PowerPositionAggregatorTests.cs:11-38 | for the test's two trades: 24 positions, with volumes 150, 175 and 0 for periods 1, 2 and 3. |
| NumberFormat.DigitsRoundTrip | PowerTrading.Infrastructure/Csv/CsvExporter.cs:67 | the decimal digits of n read back as n. |
| NumberFormat.ZeroPad | PowerTrading.Infrastructure/Csv/CsvExporter.cs:50-51 | the result is all digits, at least `width` long, and exactly `width` long when n fits. It reads back as n. |
| NumberFormat.FormatD | PowerTrading.Infrastructure/Csv/CsvExporter.cs:67 | "D<width>" gives digits with a '-' only at the front, and the '-' appears if and only if the value is negative. Its length is the sign plus the larger of `width` and the number of digits of the magnitude, so exactly `width` for a non-negative value that fits. |
| NumberFormat.FormatDRoundTrip | PowerTrading.Infrastructure/Csv/CsvExporter.cs:67 | "D<width>" output, negative values included, parses back to the value. |
| NumberFormat.FormatF | PowerTrading.Infrastructure/Csv/CsvExporter.cs:68 | "F<n>" gives only digits, '-' and '.'. It starts with '-' if and only if the value is negative, has no dot for n = 0 and exactly one dot otherwise, and its length is the sign, the digits of the magnitude, and the dot with n decimals. |
| NumberFormat.SameDigitsSameValue | PowerTrading.Infrastructure/Csv/CsvExporter.cs:67 | two digit strings of the same length that read as the same number are the same string. |
| NumberFormat.IntegerCanonical | PowerTrading.Infrastructure/Csv/CsvExporter.cs:67 | the only text of FormatD's length that reads back as v is FormatD(v, 1): no leading zeros and no "-0". |
| NumberFormat.FormatFCanonical | PowerTrading.Infrastructure/Csv/CsvExporter.cs:68 | any text of FormatF's length that reads back as v at precision n is exactly FormatF(v, n), so the length and the parser together pin every character. |
| NumberFormat.FormatFRoundTrip | PowerTrading.Infrastructure/Csv/CsvExporter.cs:68 | "F<n>" output parses back to the volume, for every precision n. |
| CsvExporter.DatePart | PowerTrading.Infrastructure/Csv/CsvExporter.cs:50 | "yyyyMMdd" is 8 characters for every representable date. |
| CsvExporter.TimePart | PowerTrading.Infrastructure/Csv/CsvExporter.cs:51 | "HHmm" is 4 characters. |
| CsvExporter.GenerateFileName | PowerTrading.Infrastructure/Csv/CsvExporter.cs:48-54 | the name is 31 characters: "PowerPosition_", 8 digits, '_', 4 digits, ".csv". |
| CsvExporter.FileNameRoundTrip | PowerTrading.Infrastructure/Csv/CsvExporter.cs:48-54 | the year, month, day, hour and minute read back out of the generated name. |
| CsvExporter.FileNameCollision | PowerTrading.Infrastructure/Csv/CsvExporter.cs:48-54 | two creation times give the same file name if and only if they fall in the same minute. |
| CsvExporter.TimeLabel | PowerTrading.Infrastructure/Csv/CsvExporter.cs:67 | for an hour of the day, the label is two digits followed by ":00". |
| CsvExporter.HeaderLine | PowerTrading.Infrastructure/Csv/CsvExporter.cs:63 | the header is "Local Time", the separator, then "Volume". |
| CsvExporter.RecordLine | PowerTrading.Infrastructure/Csv/CsvExporter.cs:67-69 | for a period 1..24, a record is a two-digit hour and ":00", the separator, then the volume in "F<n>", with length 5 + the separator + the volume text. |
| CsvExporter.RecordRoundTrip | PowerTrading.Infrastructure/Csv/CsvExporter.cs:66-69 | a record of a period 1..24 parses back to the period's hour and its exact volume, whatever the separator. |
| CsvExporter.CsvLines | PowerTrading.Infrastructure/Csv/CsvExporter.cs:62-70 | there is one line more than there are positions, and the first line is the header "Local Time<sep>Volume". |
| CsvExporter.CsvLineAt | PowerTrading.Infrastructure/Csv/CsvExporter.cs:65-70 | line i + 1 is the record of position i. |
| CsvExporter.CsvLinesInOrder | PowerTrading.Infrastructure/Csv/CsvExporter.cs:65-70 | the records follow the header in the order of the positions. |
| CsvExporter.Unlines | PowerTrading.Infrastructure/Csv/CsvExporter.cs:63-69 | AppendLine over a non-empty list of lines starts with the first line and its terminator and ends with a terminator. |
| CsvExporter.GetCsvContent | PowerTrading.Infrastructure/Csv/CsvExporter.cs:56-73 | null positions give ArgumentNull("powerPositions"). Otherwise the text is the header and then each record, each line ended by the platform's line terminator. By ContentReadsBack, that text reads back as exactly those lines. |
| CsvExporter.UnlinesConcat | PowerTrading.Infrastructure/Csv/CsvExporter.cs:63-69 | AppendLine over two lists in turn writes the first list's text and then the second's. |
| CsvExporter.UnlinesCons | PowerTrading.Infrastructure/Csv/CsvExporter.cs:63-69 | the text starts with the first line and its terminator and continues with the text of the remaining lines. |
| CsvExporter.UnlinesReadsBack | PowerTrading.Infrastructure/Csv/CsvExporter.cs:63-69 | lines without '\r' or '\n', each ended by "\n" or "\r\n", read back with `File.ReadAllLines` as exactly those lines, in order. |
| CsvExporter.HeaderAvoids | PowerTrading.Infrastructure/Csv/CsvExporter.cs:63 | the header holds a given line-break character ('\r' or '\n') only if the separator does. |
| CsvExporter.RecordAvoids | PowerTrading.Infrastructure/Csv/CsvExporter.cs:67-69 | a record holds a given line-break character only if the separator does, for every period and volume. |
| CsvExporter.CsvLineAvoids | PowerTrading.Infrastructure/Csv/CsvExporter.cs:63-69 | every line of the report holds a given line-break character only if the separator does. |
| CsvExporter.CsvLineHasNoLineBreak | PowerTrading.Infrastructure/Csv/CsvExporter.cs:63-69 | no line of the report holds '\r' or '\n' when the separator holds neither. |
| CsvExporter.ContentReadsBack | PowerTrading.Tests/CsvExporterTests.cs:33-36 | with "\n" or "\r\n" as the terminator and a separator holding neither '\r' nor '\n', the content read back with `File.ReadAllLines` is exactly the header and then one record per position, in order. |
| Text.ReadLine | PowerTrading.Tests/CsvExporterTests.cs:33 | one line read from the front of a text is a prefix without line breaks, and the rest is strictly shorter. |
| Text.SplitLines | PowerTrading.Tests/CsvExporterTests.cs:33 | `File.ReadAllLines` gives no lines exactly for the empty text. |
| Text.ReadLineOf | PowerTrading.Tests/CsvExporterTests.cs:33 | a line without line breaks, ended by "\n" or "\r\n", is read back whole, and reading resumes just after its terminator. |
| CsvExporter.TerminatorHasOneLineFeed | PowerTrading.Infrastructure/Csv/CsvExporter.cs:63 | each of the two platform terminators, "\n" and "\r\n", holds one line feed. |
| CsvExporter.UnlinesCount | PowerTrading.Infrastructure/Csv/CsvExporter.cs:60-72 | AppendLine over lines without line feeds gives one line feed per line. |
| CsvExporter.LineBreakCount | PowerTrading.Infrastructure/Csv/CsvExporter.cs:56-73 | with a separator free of line feeds, the content has exactly |positions| + 1 line feeds. It counts '\n' only; reading the lines back is ContentReadsBack's claim. |
| CsvExporter.ExportExampleFileName | PowerTrading.Tests/CsvExporterTests.cs:10-32 | 2025-06-17 21:34 gives "PowerPosition_20250617_2134.csv". |
| CsvExporter.ExportExampleLines | PowerTrading.Tests/CsvExporterTests.cs:16-36 | with ";" and 3 decimals, positions (1, 100) and (2, 150) give "Local Time;Volume", "23:00;100.000" and "00:00;150.000". |
| CsvExporter.ExampleRecords | PowerTrading.Tests/CsvExporterTests.cs:35-36 | the two records of that example, character for character. |
| CsvExporter.ExampleVolumes | PowerTrading.Tests/CsvExporterTests.cs:35-36 | "F3" of 100 and of 150 is "100.000" and "150.000". |
| IntraDayReport.ReportLines | PowerTrading.Reporting/IntraDayReport/IntraDayReportService.cs:27-31 | the aggregate-then-render step: null trades give ArgumentNull("trades"); otherwise the report has 25 lines and starts with the header. |
| IntraDayReport.ReportReadsBack | PowerTrading.Reporting/IntraDayReport/IntraDayReportService.cs:22-34 | null trades give ArgumentNull("trades"). Otherwise the report has 25 lines: the header, then records that read back as hours 23, 0, 1, …, 22, each with its period's total volume. |
| IntraDayReport.RecordReadsBack | PowerTrading.Reporting/IntraDayReport/IntraDayReportService.cs:28-31 | line i + 1 of the report reads back as the hour of period i + 1 and the sum of that period's entries. |
| BusinessCriticalWorker.Init | PowerTrading.WindowsService/BusinessCriticalWorker.cs:12-16 | the state at the start of ExecuteAsync, given by the field initialisers: an empty queue, both semaphores free, no processing task, a live token, and the loop at its `while` check. It satisfies the invariant. |
| BusinessCriticalWorker.BeginPass | PowerTrading.WindowsService/BusinessCriticalWorker.cs:73-77 | a pass starts and takes the gate only if the gate is free and the token is not cancelled. Otherwise it completes at once and changes nothing else. |
| BusinessCriticalWorker.StartProcessorIfNotRunning | PowerTrading.WindowsService/BusinessCriticalWorker.cs:62-71 | an active pass is left alone. With no active pass and the token live, a pass is started and holds the gate. |
| BusinessCriticalWorker.LoopCheck | PowerTrading.WindowsService/BusinessCriticalWorker.cs:43-45 | at the `while` check, a cancelled token ends the loop normally with nothing enqueued. A live token enqueues exactly the time source's value and moves on to the launch. Nothing else changes. |
| BusinessCriticalWorker.LoopLaunch | PowerTrading.WindowsService/BusinessCriticalWorker.cs:48-71 | with a live token the loop leaves an active pass holding the gate and moves on to the delay. With a cancelled token the lock wait throws and the loop returns, starting no pass. The queue, log and token are untouched, and the invariant is kept. |
| BusinessCriticalWorker.LoopDelay | PowerTrading.WindowsService/BusinessCriticalWorker.cs:50-53 | the delay returns to the `while` check if and only if the token is live; otherwise the loop returns normally. Nothing else changes. |
| BusinessCriticalWorker.LoopException | PowerTrading.WindowsService/BusinessCriticalWorker.cs:52-59 | cancellation ends the loop normally. Any other exception ends it by rethrowing. The queue, the log, the token and the pass are untouched. |
| BusinessCriticalWorker.CancelToken | PowerTrading.WindowsService/BusinessCriticalWorker.cs:37 | the host cancels the shared token; queue, log, loop and pass are untouched. |
| BusinessCriticalWorker.EndPass | PowerTrading.WindowsService/BusinessCriticalWorker.cs:95-97 | the finally clause releases the gate and ends the pass; nothing else changes. |
| BusinessCriticalWorker.TakeNext | PowerTrading.WindowsService/BusinessCriticalWorker.cs:79-85 | it dequeues the oldest run. With the token cancelled the run is lost and the pass ends; otherwise WorkAsync starts on it. An empty queue ends the pass and releases the gate. |
| BusinessCriticalWorker.FinishWork | PowerTrading.WindowsService/BusinessCriticalWorker.cs:83-97 | the awaited run is logged with its fate. A failure keeps the pass going. A cancellation ends the pass and releases the gate. |
| BusinessCriticalWorker.TakePreservesInv | PowerTrading.WindowsService/BusinessCriticalWorker.cs:79-85 | a dequeue keeps the invariant: gate held exactly while a pass is active, and enqueued runs equal handled, then in flight, then queued. |
| BusinessCriticalWorker.TakeCancelledPreservesInv | PowerTrading.WindowsService/BusinessCriticalWorker.cs:80-81 | dropping a run at ThrowIfCancellationRequested keeps the invariant. |
| BusinessCriticalWorker.FinishPreservesInv | PowerTrading.WindowsService/BusinessCriticalWorker.cs:83-97 | ending a WorkAsync call, with any outcome, keeps the invariant. |
| BusinessCriticalWorker.NextPreservesInv | PowerTrading.WindowsService/BusinessCriticalWorker.cs:37-97 | every event keeps the invariant. |
| BusinessCriticalWorker.RunPreservesInv | PowerTrading.WindowsService/BusinessCriticalWorker.cs:37-97 | every interleaving of events keeps the invariant. |
| BusinessCriticalWorker.HandledInEnqueueOrder | PowerTrading.WindowsService/BusinessCriticalWorker.cs:43-97 | from start-up, under every interleaving, runs are handled once each in enqueue order, at most one is in flight, and the rest remain queued. |
| BusinessCriticalWorker.Drain | PowerTrading.WindowsService/BusinessCriticalWorker.cs:79-97 | running the active pass to its end adds no scheduled run and leaves the token and the loop as they were. |
| BusinessCriticalWorker.DrainPreservesInv | PowerTrading.WindowsService/BusinessCriticalWorker.cs:79-97 | a whole pass, whatever the outcomes of its calls, keeps the invariant. |
| BusinessCriticalWorker.DrainWithoutCancellation | PowerTrading.WindowsService/BusinessCriticalWorker.cs:79-97 | without cancellation, a pass hands every queued run to WorkAsync in order, including after failures. It empties the queue and releases the gate. |
| BusinessCriticalWorker.DrainStopsAtCancellation | PowerTrading.WindowsService/BusinessCriticalWorker.cs:79-97 | a cancelled k-th call ends the pass. The runs before it are handled, that run is lost, every later run stays queued in order, and the gate is released. |
| BusinessCriticalWorker.OverlappingRunIsQueued | PowerTrading.Tests/WorkerTests.cs:62-95 | the scenario the test's comments describe (the first call hangs, a second run is scheduled meanwhile, then the first call completes); the test itself asserts only that at least one call happened. The second run is queued, not run alongside the first. Once the first call completes or fails, the same pass hands the second run over, both are handled in order, and nothing reaches the host. |
| BusinessCriticalWorker.FirstRunInFlight | PowerTrading.WindowsService/BusinessCriticalWorker.cs:43-85 | from start-up, the first tick, launch and dequeue leave that run in flight in an active pass holding the gate, with the queue empty. |
| BusinessCriticalWorker.SecondTickQueues | PowerTrading.WindowsService/BusinessCriticalWorker.cs:43-66 | a tick while a call is in flight queues its run behind that call and starts no second pass. |
| BusinessCriticalWorker.SecondRunQueued | PowerTrading.Tests/WorkerTests.cs:69-80 | the first half of that described scenario: the second tick finds the pass active and queues its run behind the call in flight. |
| BusinessCriticalWorker.QueuedRunFollows | PowerTrading.Tests/WorkerTests.cs:70-82 | the second half: the first call ends with its fate, the same pass takes the queued run, that call succeeds, and the pass ends and releases the gate. |
| BusinessCriticalWorker.CancelWhileInFlight | PowerTrading.WindowsService/BusinessCriticalWorker.cs:50-97 | cancelling during a call makes the delay throw and the loop return normally; the call ends cancelled and the pass releases the gate. |
| BusinessCriticalWorker.CancellationStopsGracefully | PowerTrading.Tests/WorkerTests.cs:22-59 | cancelling while a run is in flight makes the loop return normally. The run ends cancelled and the gate is released. |
| BusinessCriticalWorker.CancelBeforeLaunchStrandsRun | PowerTrading.WindowsService/BusinessCriticalWorker.cs:43-63 | a cancellation between the `while` check and the launch lock leaves the just-enqueued run in the queue, with the loop returned and no pass to handle it. |
| BusinessCriticalWorker.NoRunsAfterLoopEnds | PowerTrading.WindowsService/BusinessCriticalWorker.cs:43 | once the loop has returned or rethrown, no later event schedules another run and the loop stays ended. |

## Left out

- Volumes are exact integers, not `double`. Floating-point summation, and the rounding "F<n>" applies to fractional values, are not modelled.
- NumberFormat.FormatF: covers integral values only, so it prints whole digits followed by n zeros. The rounding of fractional digits is not modelled.
- `DecimalPlaces` is a natural number. With a negative setting, .NET reads "F-1" as a custom format whose characters are literals, so no digit of the volume is printed. That case is not modelled.
- NumberFormat.FormatD: models "D<n>" with the invariant '-' sign. The hour's "D2" uses the current culture, so a negative hour, which comes from a period outside 1..24, would carry that culture's minus sign. That is not modelled. For every hour 0..23 the text is the same in every culture.
- Trades whose `Periods` array is null, and null elements in the trade or position lists, are not modelled. The source fails on those with a NullReferenceException.
- `PowerServiceClient` (remote calls and their retries), `LondonTime`, `Extensions`, `Program` and the concrete `Worker` are not modelled: they are I/O, clock and host wiring.
- `CsvExporter.Export` is not modelled. It covers directory creation, the UTF-8 file write, the Polly retry policy with its back-off, and the path combination; these are I/O. `Environment.NewLine` is the `newLine` parameter of `GetCsvContent`.
- The scheduling interval (`Task.Delay`, `ExtractIntervalMinutes`) is not modelled. Time passing is the order of the events, and the time source's value is the `Tick` parameter.
- Real concurrency is not modelled. Each event is taken as one atomic step, and the events split the source's uninterrupted stretches further (see above); the source gives no lock that makes any step atomic, since `_processingLock` is taken only by the loop's own launch and only serialises those launches.
- The race inside `ProcessQueueAsync` between a launch and `_semaphore.WaitAsync(0, token)` is not modelled separately. A launch with a live token starts the pass in the same step; a token cancelled in between would make the wait throw and leave the run queued, the same end state `CancelBeforeLaunchStrandsRun` shows.
- The window between the pass's final failed `TryDequeue` and the completion of its task is not modelled. In the source, a run enqueued in that window finds the task still running and waits for the next tick. In the model, an empty queue ends the pass atomically.
- A loop that leaves `while (!token.IsCancellationRequested)` without an exception, and one whose lock wait or delay throws OperationCanceledException, both end in the model with `Returned`. The log line that tells them apart is not modelled.
- `StartAsync` and all logging are not modelled.
- `StopAsync` is modelled only as the `Cancel` event. In the source, it then waits for ExecuteAsync's task and never for the processing pass.
- `Dispose` is not modelled. It disposes `_semaphore` (BusinessCriticalWorker.cs:101-104). A pass still running after `StopAsync` and `Dispose` then fails at `_semaphore.Release()` with ObjectDisposedException. The gate-release properties hold only for passes that end before `Dispose`.
- The worker state's `enqueued` history is a record kept for stating properties, not a field of the source.

=== FILE: aggregator.dfy ===
/** PowerPositionAggregator: turns the day's trades into 24 hourly positions
    by summing, per settlement period, the volumes of every trade. */
module PowerPositionAggregator {
  import opened Wrappers
  import opened BoundedInts
  import opened PowerPositions

  /** One period entry of a trade. */
  datatype PowerPeriod = PowerPeriod(period: int32, volume: int)

  /** A trade: its period entries (the trade date is never read here). */
  datatype PowerTrade = PowerTrade(periods: seq<PowerPeriod>)

  const PERIODS_PER_DAY: int := 24

  /** The period number reported at a 0-based position of the result. */
  function PeriodAt(index: int): (period: int32)
    requires 0 <= index < PERIODS_PER_DAY
    ensures period as int == index + 1
  {
    (index + 1) as int32
  }

  /** SelectMany: every period entry of every trade, trade after trade. */
  function Flatten(trades: seq<PowerTrade>): (entries: seq<PowerPeriod>)
    ensures forall t, e :: t in trades && e in t.periods ==> e in entries
    ensures forall e :: e in entries ==> exists t :: t in trades && e in t.periods
  {
    if |trades| == 0 then []
    else Flatten(trades[..|trades| - 1]) + trades[|trades| - 1].periods
  }

  lemma {:induction false} FlattenAppend(a: seq<PowerTrade>, b: seq<PowerTrade>)
    ensures Flatten(a + b) == Flatten(a) + Flatten(b)
    decreases |b|
  {
    if |b| == 0 {
      assert a + b == a;
    } else {
      var init := b[..|b| - 1];
      var last := b[|b| - 1];
      assert (a + b)[..|a + b| - 1] == a + init;
      assert Flatten(a + b) == Flatten(a + init) + last.periods;
      assert Flatten(b) == Flatten(init) + last.periods;
      FlattenAppend(a, init);
    }
  }

  /** SelectMany over a single trade is that trade's entries, in their order
      and with their repeats; with FlattenAppend this fixes Flatten on every
      list of trades. */
  lemma FlattenOne(t: PowerTrade)
    ensures Flatten([t]) == t.periods
  {
    assert [t][..0] == [];
  }

  /** Reference definition: the total volume the entries hold for period p. */
  function SumFor(entries: seq<PowerPeriod>, p: int32): int
  {
    if |entries| == 0 then 0
    else
      var last := entries[|entries| - 1];
      SumFor(entries[..|entries| - 1], p) + (if last.period == p then last.volume else 0)
  }

  lemma {:induction false} SumForAppend(a: seq<PowerPeriod>, b: seq<PowerPeriod>, p: int32)
    ensures SumFor(a + b, p) == SumFor(a, p) + SumFor(b, p)
    decreases |b|
  {
    if |b| == 0 {
      assert a + b == a;
    } else {
      assert (a + b)[..|a + b| - 1] == a + b[..|b| - 1];
      SumForAppend(a, b[..|b| - 1], p);
    }
  }

  /** The period numbers that occur among the entries. */
  function Periods(entries: seq<PowerPeriod>): set<int32> {
    set e | e in entries :: e.period
  }

  /** A period no entry mentions has nothing to sum. */
  lemma {:induction false} SumForAbsent(entries: seq<PowerPeriod>, p: int32)
    requires p !in Periods(entries)
    ensures SumFor(entries, p) == 0
  {
    if |entries| > 0 {
      var init := entries[..|entries| - 1];
      assert Periods(init) <= Periods(entries) by {
        forall e | e in init ensures e in entries { }
      }
      SumForAbsent(init, p);
    }
  }

  /** GroupBy(period) followed by ToDictionary(key, sum of volumes): one key
      per period that occurs, holding that period's total. */
  function HourlyVolumes(entries: seq<PowerPeriod>): (volumes: map<int32, int>)
    ensures volumes.Keys == Periods(entries)
    ensures forall p :: p in volumes ==> volumes[p] == SumFor(entries, p)
  {
    if |entries| == 0 then map[]
    else
      var init := entries[..|entries| - 1];
      var last := entries[|entries| - 1];
      var volumes := HourlyVolumes(init);
      assert entries == init + [last];
      if last.period in volumes then
        volumes[last.period := volumes[last.period] + last.volume]
      else
        SumForAbsent(init, last.period);
        volumes[last.period := last.volume]
  }

  /** TryGetValue with 0 for a missing key: on the grouped dictionary of
      any entries, the lookup is that period's total. */
  function VolumeOrZero(volumes: map<int32, int>, p: int32): (v: int)
    ensures forall entries :: HourlyVolumes(entries) == volumes ==> v == SumFor(entries, p)
  {
    assert forall entries :: HourlyVolumes(entries) == volumes && p !in volumes ==> SumFor(entries, p) == 0 by {
      forall entries | HourlyVolumes(entries) == volumes && p !in volumes
        ensures SumFor(entries, p) == 0
      {
        SumForAbsent(entries, p);
      }
    }
    if p in volumes then volumes[p] else 0
  }

  /** What the aggregator promises: exactly one position per period 1..24,
      in ascending order, each holding the sum of that period's entries. */
  predicate IsHourlyAggregate(trades: seq<PowerTrade>, positions: seq<PowerPosition>) {
    && |positions| == PERIODS_PER_DAY
    && forall i :: 0 <= i < |positions| ==>
         positions[i] == PowerPosition(PeriodAt(i), SumFor(Flatten(trades), PeriodAt(i)))
  }

  /** AggregateByHour (the LINQ version). The run id and run time of the
      source signature are never read and are not parameters here. */
  function AggregateByHour(trades: Option<seq<PowerTrade>>): (r: Result<seq<PowerPosition>, ArgumentError>)
    ensures trades.None? ==> r == Failure(ArgumentNull("trades"))
    ensures trades.Some? ==> r.Success? && IsHourlyAggregate(trades.value, r.value)
  {
    if trades.None? then Failure(ArgumentNull("trades"))
    else
      var hourlyVolumes := HourlyVolumes(Flatten(trades.value));
      var positions := seq(PERIODS_PER_DAY, i requires 0 <= i < PERIODS_PER_DAY =>
        PowerPosition(PeriodAt(i), VolumeOrZero(hourlyVolumes, PeriodAt(i))));
      Success(positions)
  }

  /** The `(uint)(p - 1) < 24` test of the array version is exactly the
      range check 1 <= p <= 24, wrap-around at the int minimum included. */
  lemma BoundsCheckIsRange(p: int32)
    ensures ToUint(Wrap(p as int - 1)) < PERIODS_PER_DAY <==> 1 <= p as int <= PERIODS_PER_DAY
  {
  }

  /** The inner loop of the array version: one trade's entries added to the
      25 volume slots (slot 0 unused), each entry only when its period passes
      the `(uint)(p - 1) < 24` range check. */
  method AddTrade(slots: seq<int>, periods: seq<PowerPeriod>) returns (result: seq<int>)
    requires |slots| == PERIODS_PER_DAY + 1
    ensures |result| == PERIODS_PER_DAY + 1
    ensures result[0] == slots[0]
    ensures forall p :: 1 <= p <= PERIODS_PER_DAY ==> result[p] == slots[p] + SumFor(periods, p as int32)
  {
    result := slots;
    var i := 0;
    assert forall q: int32 :: SumFor(periods[..0], q) == 0 by {
      assert periods[..0] == [];
    }
    while i < |periods|
      invariant 0 <= i <= |periods|
      invariant |result| == PERIODS_PER_DAY + 1 && result[0] == slots[0]
      invariant forall p :: 1 <= p <= PERIODS_PER_DAY ==> result[p] == slots[p] + SumFor(periods[..i], p as int32)
    {
      var period := periods[i];
      var p := period.period;
      BoundsCheckIsRange(p);
      if ToUint(Wrap(p as int - 1)) < PERIODS_PER_DAY {
        result := result[p := result[p] + period.volume];
      }
      assert periods[..i + 1][..i] == periods[..i];
      i := i + 1;
    }
    assert periods[..|periods|] == periods;
  }

  /** The final loop of the array version: slot p becomes the position of
      period p, for p = 1..24 in order. */
  method SlotsToPositions(slots: seq<int>) returns (positions: seq<PowerPosition>)
    requires |slots| == PERIODS_PER_DAY + 1
    ensures |positions| == PERIODS_PER_DAY
    ensures forall j :: 0 <= j < PERIODS_PER_DAY ==> positions[j] == PowerPosition(PeriodAt(j), slots[j + 1])
  {
    positions := [];
    var k := 1;
    while k <= PERIODS_PER_DAY
      invariant 1 <= k <= PERIODS_PER_DAY + 1
      invariant |positions| == k - 1
      invariant forall j :: 0 <= j < k - 1 ==> positions[j] == PowerPosition(PeriodAt(j), slots[j + 1])
    {
      positions := positions + [PowerPosition(k as int32, slots[k])];
      k := k + 1;
    }
  }

  /** AggregateByHour_Experiment: the same result accumulated in 25 slots
      with a range check per entry. It agrees with the LINQ version on every
      input, the null one included. */
  method AggregateByHourExperiment(trades: Option<seq<PowerTrade>>) returns (r: Result<seq<PowerPosition>, ArgumentError>)
    ensures r == AggregateByHour(trades)
  {
    if trades.None? {
      return Failure(ArgumentNull("trades"));
    }
    var ts := trades.value;
    var hourlyVolumes := seq(PERIODS_PER_DAY + 1, _ => 0);
    var t := 0;
    while t < |ts|
      invariant 0 <= t <= |ts|
      invariant |hourlyVolumes| == PERIODS_PER_DAY + 1
      invariant forall p :: 1 <= p <= PERIODS_PER_DAY ==> hourlyVolumes[p] == SumFor(Flatten(ts[..t]), p as int32)
    {
      ghost var before := Flatten(ts[..t]);
      hourlyVolumes := AddTrade(hourlyVolumes, ts[t].periods);
      assert ts[..t + 1][..t] == ts[..t];
      assert Flatten(ts[..t + 1]) == before + ts[t].periods;
      forall p | 1 <= p <= PERIODS_PER_DAY
        ensures hourlyVolumes[p] == SumFor(Flatten(ts[..t + 1]), p as int32)
      {
        SumForAppend(before, ts[t].periods, p as int32);
      }
      t := t + 1;
    }
    assert ts[..|ts|] == ts;
    var positions := SlotsToPositions(hourlyVolumes);
    var expected := AggregateByHour(trades).value;
    forall j | 0 <= j < PERIODS_PER_DAY
      ensures positions[j] == expected[j]
    {
      assert hourlyVolumes[j + 1] == SumFor(Flatten(ts), PeriodAt(j));
    }
    assert positions == expected;
    r := Success(positions);
  }

  /** A period no trade mentions is reported with volume 0. */
  lemma {:induction false} MissingPeriodIsZero(trades: seq<PowerTrade>, p: int32)
    requires 1 <= p as int <= PERIODS_PER_DAY
    requires forall e :: e in Flatten(trades) ==> e.period != p
    ensures AggregateByHour(Some(trades)).value[p - 1] == PowerPosition(p, 0)
  {
    SumForAbsent(Flatten(trades), p);
  }

  /** Entries whose period lies outside 1..24 leave the report unchanged. */
  lemma {:induction false} OutOfRangeEntriesIgnored(trades: seq<PowerTrade>, extra: seq<PowerTrade>)
    requires forall e :: e in Flatten(extra) ==> !(1 <= e.period as int <= PERIODS_PER_DAY)
    ensures AggregateByHour(Some(trades + extra)) == AggregateByHour(Some(trades))
  {
    FlattenAppend(trades, extra);
    var r := AggregateByHour(Some(trades + extra)).value;
    var s := AggregateByHour(Some(trades)).value;
    forall i | 0 <= i < PERIODS_PER_DAY
      ensures r[i] == s[i]
    {
      var p := PeriodAt(i);
      SumForAppend(Flatten(trades), Flatten(extra), p);
      SumForAbsent(Flatten(extra), p);
    }
    assert r == s;
  }

  /** The two-trade example: periods 1 and 2 sum across trades, period 3 is 0. */
  lemma SumsAcrossTrades()
    ensures var r := AggregateByHour(Some([
        PowerTrade([PowerPeriod(1, 100), PowerPeriod(2, 150)]),
        PowerTrade([PowerPeriod(1, 50), PowerPeriod(2, 25)])])).value;
      |r| == PERIODS_PER_DAY && r[0].volume == 150 && r[1].volume == 175 && r[2].volume == 0
  {
    var first := [PowerPeriod(1, 100), PowerPeriod(2, 150)];
    var second := [PowerPeriod(1, 50), PowerPeriod(2, 25)];
    var trades := [PowerTrade(first), PowerTrade(second)];
    assert trades[..1] == [PowerTrade(first)];
    assert Flatten([PowerTrade(first)]) == first by {
      assert [PowerTrade(first)][..0] == [];
    }
    assert Flatten(trades) == first + second;
    assert first[..1] == [PowerPeriod(1, 100)] && first[..1][..0] == [];
    assert second[..1] == [PowerPeriod(1, 50)] && second[..1][..0] == [];
    SumForAppend(first, second, 1);
    SumForAppend(first, second, 2);
    SumForAppend(first, second, 3);
    assert SumFor(Flatten(trades), 1) == 150;
    assert SumFor(Flatten(trades), 2) == 175;
    assert SumFor(Flatten(trades), 3) == 0;
    var r := AggregateByHour(Some(trades)).value;
    assert r[0] == PowerPosition(PeriodAt(0), SumFor(Flatten(trades), PeriodAt(0)));
    assert r[1] == PowerPosition(PeriodAt(1), SumFor(Flatten(trades), PeriodAt(1)));
    assert r[2] == PowerPosition(PeriodAt(2), SumFor(Flatten(trades), PeriodAt(2)));
  }
}

=== FILE: bounded_ints.dfy ===
/** C#'s 32-bit `int` and the two machine operations on it the core relies
    on: unchecked (wrapping) arithmetic and the `(uint)` reinterpretation. */
module BoundedInts {

  const TWO_TO_THE_32: int := 0x1_0000_0000
  const INT32_MIN: int := -0x8000_0000
  const INT32_MAX: int := 0x7fff_ffff

  newtype int32 = x: int | -0x8000_0000 <= x < 0x8000_0000

  /** The int32 that unchecked C# arithmetic yields for the mathematical
      result x: x reduced modulo 2^32 into the signed range. */
  function Wrap(x: int): (r: int32)
    ensures INT32_MIN <= x <= INT32_MAX ==> r as int == x
    ensures (x - r as int) % TWO_TO_THE_32 == 0
  {
    var m := x % TWO_TO_THE_32;
    if m <= INT32_MAX then m as int32 else (m - TWO_TO_THE_32) as int32
  }

  /** The `(uint)` cast: the same 32 bits read as an unsigned number. */
  function ToUint(x: int32): (r: nat)
    ensures r < TWO_TO_THE_32
    ensures 0 <= x ==> r == x as int
    ensures x < 0 ==> r == x as int + TWO_TO_THE_32
  {
    x as int % TWO_TO_THE_32
  }
}

=== FILE: business_critical_worker.dfy ===
/** BusinessCriticalWorker as a sequential state machine.

    The scheduling loop (ExecuteAsync) and the processing pass
    (ProcessQueueAsync) run concurrently in the source. Here each event is
    one atomic step, and the events split the source's uninterrupted
    stretches further: with the locks free, Tick, Launch and the first Take
    run in the source without yielding. The events are:
    - Tick: the loop's `while` check and, if the token is live, enqueuing
      the time source's value;
    - Launch: StartProcessorIfNotRunningAsync;
    - Wake: the end of the loop's Task.Delay;
    - Take: the pass dequeues the next run and starts WorkAsync on it;
    - Finish: that WorkAsync call ends, with its outcome supplied from
      outside;
    - Cancel: the host cancels the stopping token;
    - Interrupt: an exception out of the loop body.
    A run of the worker is a sequence of these events. */
module BusinessCriticalWorker {
  import opened Wrappers
  import opened Clock

  /** How one WorkAsync call ends: normally, with an exception, or with an
      OperationCanceledException. */
  datatype WorkOutcome = Completed | Faulted | Cancelled

  /** What became of a dequeued run. CancelledBeforeWork is the
      ThrowIfCancellationRequested check firing before WorkAsync is called. */
  datatype Fate = Succeeded | Failed | CancelledInWork | CancelledBeforeWork

  datatype Handled = Handled(run: DateTime, fate: Fate)

  /** Where ExecuteAsync stands: about to evaluate the `while` condition,
      between enqueuing a run and starting the processor, inside
      Task.Delay, returned normally, or ended by rethrowing an exception to
      the host. */
  datatype LoopState = AtCheck | Launching | Delaying | Returned | Rethrown

  /** The loop has not ended. */
  predicate Running(loop: LoopState) {
    loop == AtCheck || loop == Launching || loop == Delaying
  }

  /** An exception raised by the loop itself rather than by a run. */
  datatype LoopError = OperationCancelled | Unexpected

  /** queue: the scheduled runs not yet dequeued (_scheduledRuns).
      passActive: a processing task exists and has not completed.
      gateHeld: the pass semaphore (_semaphore) is taken.
      inFlight: the run whose WorkAsync call the pass is awaiting, if any.
      tokenCancelled: the stopping token has been cancelled.
      enqueued: every run ever enqueued, oldest first.
      log: every run whose handling has ended, with its fate, in order. */
  datatype Worker = Worker(
    queue: seq<DateTime>,
    passActive: bool,
    gateHeld: bool,
    inFlight: Option<DateTime>,
    tokenCancelled: bool,
    loop: LoopState,
    enqueued: seq<DateTime>,
    log: seq<Handled>)

  /** The worker as ExecuteAsync starts: nothing scheduled, both semaphores
      free, no processing task, the token live. */
  function Init(): (w: Worker)
    ensures Inv(w)
    ensures w.queue == [] && w.log == [] && w.enqueued == [] && w.inFlight == None
    ensures !w.passActive && !w.gateHeld && !w.tokenCancelled && w.loop == AtCheck
  {
    Worker([], false, false, None, false, AtCheck, [], [])
  }

  function InFlightRuns(w: Worker): seq<DateTime> {
    if w.inFlight.Some? then [w.inFlight.value] else []
  }

  /** The runs of a log, in order. */
  function Runs(log: seq<Handled>): (runs: seq<DateTime>)
    ensures |runs| == |log|
    ensures forall i :: 0 <= i < |log| ==> runs[i] == log[i].run
  {
    if |log| == 0 then [] else Runs(log[..|log| - 1]) + [log[|log| - 1].run]
  }

  /** The states the machine can be in: the gate is held exactly while a pass
      is active, only an active pass has work in flight, and every enqueued
      run is handled, in flight or still queued (once each, in enqueue
      order). */
  predicate Inv(w: Worker) {
    && w.gateHeld == w.passActive
    && (w.inFlight.Some? ==> w.passActive)
    && w.enqueued == Runs(w.log) + InFlightRuns(w) + w.queue
  }

  // ---------------------------------------------------------------- launch

  /** Entry of ProcessQueueAsync: take the gate with zero wait. If the gate
      is taken, or the token is already cancelled, the new pass completes at
      once and dequeues nothing. */
  function BeginPass(w: Worker): (r: Worker)
    ensures r.queue == w.queue && r.log == w.log && r.enqueued == w.enqueued && r.inFlight == w.inFlight
    ensures r.tokenCancelled == w.tokenCancelled && r.loop == w.loop
    ensures r.passActive <==> !w.gateHeld && !w.tokenCancelled
    ensures r.gateHeld <==> w.gateHeld || !w.tokenCancelled
  {
    if w.gateHeld || w.tokenCancelled then w.(passActive := false)
    else w.(passActive := true, gateHeld := true)
  }

  /** StartProcessorIfNotRunningAsync, once the launch lock is taken: a new
      pass is started only when no pass exists or the last one has
      completed; a running pass is left alone and picks up whatever was
      enqueued. */
  function StartProcessorIfNotRunning(w: Worker): (r: Worker)
    ensures w.passActive ==> r == w
    ensures r.queue == w.queue && r.log == w.log && r.enqueued == w.enqueued && r.inFlight == w.inFlight
    ensures r.tokenCancelled == w.tokenCancelled && r.loop == w.loop
    ensures Inv(w) && !w.tokenCancelled ==> r.passActive && r.gateHeld
  {
    if w.passActive then w else BeginPass(w)
  }

  /** The `while` check of ExecuteAsync and the enqueue that follows it. A
      cancelled token ends the loop normally; otherwise the time source's
      value joins the queue. */
  function LoopCheck(w: Worker, now: DateTime): (r: Worker)
    ensures w.loop != AtCheck ==> r == w
    ensures w.loop == AtCheck && w.tokenCancelled ==> r.loop == Returned && r.queue == w.queue && r.enqueued == w.enqueued
    ensures w.loop == AtCheck && !w.tokenCancelled ==>
      r.loop == Launching && r.queue == w.queue + [now] && r.enqueued == w.enqueued + [now]
    ensures r.log == w.log && r.inFlight == w.inFlight && r.tokenCancelled == w.tokenCancelled
    ensures r.passActive == w.passActive && r.gateHeld == w.gateHeld
  {
    if w.loop != AtCheck then w
    else if w.tokenCancelled then w.(loop := Returned)
    else w.(queue := w.queue + [now], enqueued := w.enqueued + [now], loop := Launching)
  }

  /** The loop's call of StartProcessorIfNotRunningAsync. Waiting for the
      launch lock with a cancelled token throws, which the loop absorbs:
      the run just enqueued stays queued and no pass is started for it. */
  function LoopLaunch(w: Worker): (r: Worker)
    ensures w.loop != Launching ==> r == w
    ensures w.loop == Launching && w.tokenCancelled ==> r.loop == Returned && r.passActive == w.passActive
    ensures w.loop == Launching && !w.tokenCancelled ==> r.loop == Delaying
    ensures Inv(w) && w.loop == Launching && !w.tokenCancelled ==> r.passActive && r.gateHeld
    ensures w.passActive ==> r.passActive && r.gateHeld == w.gateHeld
    ensures Inv(w) ==> Inv(r)
    ensures r.queue == w.queue && r.log == w.log && r.enqueued == w.enqueued
    ensures r.inFlight == w.inFlight && r.tokenCancelled == w.tokenCancelled
  {
    if w.loop != Launching then w
    else if w.tokenCancelled then LoopException(w, OperationCancelled)
    else StartProcessorIfNotRunning(w).(loop := Delaying)
  }

  /** The end of the loop's Task.Delay: with the token cancelled the delay
      throws and the loop absorbs it; otherwise the loop goes round. */
  function LoopDelay(w: Worker): (r: Worker)
    ensures w.loop != Delaying ==> r == w
    ensures w.loop == Delaying ==> (r.loop == Returned <==> w.tokenCancelled)
    ensures w.loop == Delaying ==> (r.loop == AtCheck <==> !w.tokenCancelled)
    ensures r.queue == w.queue && r.log == w.log && r.enqueued == w.enqueued && r.inFlight == w.inFlight
    ensures r.tokenCancelled == w.tokenCancelled && r.passActive == w.passActive && r.gateHeld == w.gateHeld
  {
    if w.loop != Delaying then w
    else if w.tokenCancelled then LoopException(w, OperationCancelled)
    else w.(loop := AtCheck)
  }

  /** The catch clauses of ExecuteAsync: cancellation is absorbed and the
      loop returns normally; any other exception is rethrown. */
  function LoopException(w: Worker, error: LoopError): (r: Worker)
    ensures Running(w.loop) ==> (r.loop == Returned <==> error == OperationCancelled)
    ensures Running(w.loop) ==> (r.loop == Rethrown <==> error == Unexpected)
    ensures !Running(w.loop) ==> r == w
    ensures r.queue == w.queue && r.log == w.log && r.enqueued == w.enqueued && r.inFlight == w.inFlight
    ensures r.tokenCancelled == w.tokenCancelled && r.passActive == w.passActive && r.gateHeld == w.gateHeld
  {
    if !Running(w.loop) then w
    else
      match error
      case OperationCancelled => w.(loop := Returned)
      case Unexpected => w.(loop := Rethrown)
  }

  /** The host cancels the stopping token that the loop and the pass share. */
  function CancelToken(w: Worker): (r: Worker)
    ensures r.tokenCancelled
    ensures r.queue == w.queue && r.log == w.log && r.enqueued == w.enqueued && r.inFlight == w.inFlight
    ensures r.loop == w.loop && r.passActive == w.passActive && r.gateHeld == w.gateHeld
  {
    w.(tokenCancelled := true)
  }

  // ---------------------------------------------------------------- drain

  /** The finally clause: the gate is released and the pass's task completes. */
  function EndPass(w: Worker): (r: Worker)
    ensures !r.passActive && !r.gateHeld
    ensures r.queue == w.queue && r.log == w.log && r.enqueued == w.enqueued && r.inFlight == w.inFlight
    ensures r.tokenCancelled == w.tokenCancelled && r.loop == w.loop
  {
    w.(passActive := false, gateHeld := false)
  }

  function FateOf(outcome: WorkOutcome): Fate {
    match outcome
    case Completed => Succeeded
    case Faulted => Failed
    case Cancelled => CancelledInWork
  }

  /** The head of one iteration of the drain loop: dequeue the next run,
      check the token, and call WorkAsync. An empty queue ends the pass; a
      cancelled token ends it too and loses the run just dequeued. A pass
      awaiting a WorkAsync call does not move. */
  function TakeNext(w: Worker): (r: Worker)
    ensures !w.passActive || w.inFlight.Some? ==> r == w
    ensures w.passActive && !r.passActive ==> !r.gateHeld
    ensures w.passActive && w.inFlight.None? ==>
      (r.passActive <==> |w.queue| > 0 && !w.tokenCancelled)
    ensures w.passActive && w.inFlight.None? && |w.queue| > 0 ==>
      && r.queue == w.queue[1..]
      && (w.tokenCancelled ==> r.log == w.log + [Handled(w.queue[0], CancelledBeforeWork)] && r.inFlight == None)
      && (!w.tokenCancelled ==> r.log == w.log && r.inFlight == Some(w.queue[0]))
    ensures w.passActive && w.inFlight.None? && |w.queue| == 0 ==> r.queue == [] && r.log == w.log && r.inFlight == None
    ensures r.enqueued == w.enqueued && r.tokenCancelled == w.tokenCancelled && r.loop == w.loop
  {
    if !w.passActive || w.inFlight.Some? then w
    else if |w.queue| == 0 then EndPass(w)
    else
      var run := w.queue[0];
      var dequeued := w.(queue := w.queue[1..]);
      if w.tokenCancelled then EndPass(dequeued.(log := w.log + [Handled(run, CancelledBeforeWork)]))
      else dequeued.(inFlight := Some(run))
  }

  /** The tail of one iteration of the drain loop: the awaited WorkAsync call
      ends. A failure is logged and the drain goes on; a cancellation ends
      the pass, losing the run, and releases the gate. */
  function FinishWork(w: Worker, outcome: WorkOutcome): (r: Worker)
    ensures w.inFlight.None? ==> r == w
    ensures w.inFlight.Some? ==>
      && r.inFlight == None
      && r.log == w.log + [Handled(w.inFlight.value, FateOf(outcome))]
      && (r.passActive <==> w.passActive && outcome != Cancelled)
      && (outcome == Cancelled ==> !r.gateHeld)
    ensures r.queue == w.queue && r.enqueued == w.enqueued && r.tokenCancelled == w.tokenCancelled && r.loop == w.loop
  {
    if w.inFlight.None? then w
    else
      var next := w.(inFlight := None, log := w.log + [Handled(w.inFlight.value, FateOf(outcome))]);
      if outcome == Cancelled then EndPass(next) else next
  }

  // ---------------------------------------------------------------- traces

  datatype Event =
    | Tick(now: DateTime)
    | Launch
    | Wake
    | Take
    | Finish(outcome: WorkOutcome)
    | Cancel
    | Interrupt(error: LoopError)

  function Next(w: Worker, e: Event): Worker {
    match e
    case Tick(now) => LoopCheck(w, now)
    case Launch => LoopLaunch(w)
    case Wake => LoopDelay(w)
    case Take => TakeNext(w)
    case Finish(outcome) => FinishWork(w, outcome)
    case Cancel => CancelToken(w)
    case Interrupt(error) => LoopException(w, error)
  }

  function Run(w: Worker, events: seq<Event>): Worker
    decreases |events|
  {
    if |events| == 0 then w else Run(Next(w, events[0]), events[1..])
  }

  lemma RunsAppend(log: seq<Handled>, h: Handled)
    ensures Runs(log + [h]) == Runs(log) + [h.run]
  {
    assert (log + [h])[..|log|] == log;
  }

  lemma TakePreservesInv(w: Worker)
    requires Inv(w)
    ensures Inv(TakeNext(w))
  {
    if w.passActive && w.inFlight.None? && |w.queue| > 0 {
      if w.tokenCancelled {
        TakeCancelledPreservesInv(w);
      } else {
        var r := TakeNext(w);
        assert InFlightRuns(w) == [];
        assert InFlightRuns(r) == [w.queue[0]];
        assert w.queue == [w.queue[0]] + r.queue;
        assert Runs(w.log) + [w.queue[0]] + r.queue == Runs(w.log) + w.queue;
      }
    }
  }

  lemma TakeCancelledPreservesInv(w: Worker)
    requires Inv(w) && w.passActive && w.inFlight.None? && |w.queue| > 0 && w.tokenCancelled
    ensures Inv(TakeNext(w))
  {
    var r := TakeNext(w);
    var h := Handled(w.queue[0], CancelledBeforeWork);
    assert r.log == w.log + [h];
    RunsAppend(w.log, h);
    assert InFlightRuns(w) == [] && InFlightRuns(r) == [];
    assert w.queue == [w.queue[0]] + r.queue;
    assert Runs(w.log) + [w.queue[0]] + r.queue == Runs(w.log) + w.queue;
  }

  lemma FinishPreservesInv(w: Worker, outcome: WorkOutcome)
    requires Inv(w)
    ensures Inv(FinishWork(w, outcome))
  {
    if w.inFlight.Some? {
      RunsAppend(w.log, Handled(w.inFlight.value, FateOf(outcome)));
    }
  }

  lemma NextPreservesInv(w: Worker, e: Event)
    requires Inv(w)
    ensures Inv(Next(w, e))
  {
    match e
    case Take => TakePreservesInv(w);
    case Finish(outcome) => FinishPreservesInv(w, outcome);
    case Tick(now) =>
      if w.loop == AtCheck && !w.tokenCancelled {
        assert Runs(w.log) + InFlightRuns(w) + (w.queue + [now]) == w.enqueued + [now];
      }
    case Launch =>
    case Wake =>
    case Cancel =>
    case Interrupt(error) =>
  }

  /** Every state reachable from a state satisfying the invariant satisfies it. */
  lemma {:induction false} RunPreservesInv(w: Worker, events: seq<Event>)
    requires Inv(w)
    ensures Inv(Run(w, events))
    decreases |events|
  {
    if |events| > 0 {
      NextPreservesInv(w, events[0]);
      RunPreservesInv(Next(w, events[0]), events[1..]);
    }
  }

  /** Whatever the interleaving: runs leave the queue in the order they were
      enqueued, each once, at most one WorkAsync call is awaited at a time,
      and the gate is held exactly while a pass is active. */
  lemma HandledInEnqueueOrder(events: seq<Event>)
    ensures var w := Run(Init(), events);
      && |w.log| + |InFlightRuns(w)| <= |w.enqueued|
      && Runs(w.log) + InFlightRuns(w) == w.enqueued[..|w.log| + |InFlightRuns(w)|]
      && w.queue == w.enqueued[|w.log| + |InFlightRuns(w)|..]
      && (w.passActive <==> w.gateHeld)
      && (w.inFlight.Some? ==> w.passActive)
  {
    RunPreservesInv(Init(), events);
  }

  // ---------------------------------------------------------------- whole passes

  /** The active pass run to its end with nothing else happening meanwhile,
      the i-th WorkAsync call ending with outcomes[i]; it stops early, still
      awaiting a call, if the outcomes run out. */
  function Drain(w: Worker, outcomes: seq<WorkOutcome>): (r: Worker)
    ensures r.enqueued == w.enqueued && r.tokenCancelled == w.tokenCancelled && r.loop == w.loop
    decreases |outcomes|
  {
    if !w.passActive || w.inFlight.Some? then w
    else
      var taken := TakeNext(w);
      if taken.inFlight.None? || |outcomes| == 0 then taken
      else Drain(FinishWork(taken, outcomes[0]), outcomes[1..])
  }

  /** A whole pass keeps the invariant. */
  lemma {:induction false} DrainPreservesInv(w: Worker, outcomes: seq<WorkOutcome>)
    requires Inv(w)
    ensures Inv(Drain(w, outcomes))
    decreases |outcomes|
  {
    if w.passActive && w.inFlight.None? {
      var taken := TakeNext(w);
      TakePreservesInv(w);
      if taken.inFlight.Some? && |outcomes| > 0 {
        FinishPreservesInv(taken, outcomes[0]);
        DrainPreservesInv(FinishWork(taken, outcomes[0]), outcomes[1..]);
      }
    }
  }

  /** Without cancellation a pass hands every queued run to WorkAsync, in
      order, whether or not earlier runs failed; it ends only with the queue
      empty, and releases the gate. */
  lemma {:induction false} DrainWithoutCancellation(w: Worker, outcomes: seq<WorkOutcome>)
    requires w.passActive && w.inFlight.None? && !w.tokenCancelled
    requires |w.queue| <= |outcomes|
    requires forall i :: 0 <= i < |w.queue| ==> outcomes[i] != Cancelled
    ensures var r := Drain(w, outcomes);
      && r.queue == [] && !r.passActive && !r.gateHeld && r.inFlight == None
      && |r.log| == |w.log| + |w.queue|
      && r.log[..|w.log|] == w.log
      && forall i :: 0 <= i < |w.queue| ==> r.log[|w.log| + i] == Handled(w.queue[i], FateOf(outcomes[i]))
    decreases |w.queue|
  {
    if |w.queue| > 0 {
      var next := FinishWork(TakeNext(w), outcomes[0]);
      assert next.queue == w.queue[1..];
      DrainWithoutCancellation(next, outcomes[1..]);
      var r := Drain(w, outcomes);
      assert r == Drain(next, outcomes[1..]);
      assert r.log[..|next.log|] == next.log;
      forall i | 0 <= i < |w.queue|
        ensures r.log[|w.log| + i] == Handled(w.queue[i], FateOf(outcomes[i]))
      {
        if i > 0 {
          assert r.log[|next.log| + (i - 1)] == Handled(next.queue[i - 1], FateOf(outcomes[1..][i - 1]));
        }
      }
    }
  }

  /** A cancelled WorkAsync call ends the pass: the runs before it were all
      handed over, the cancelled run is lost, every later run stays queued
      in order, and the gate is released. */
  lemma {:induction false} DrainStopsAtCancellation(w: Worker, outcomes: seq<WorkOutcome>, k: nat)
    requires w.passActive && w.inFlight.None? && !w.tokenCancelled
    requires k < |w.queue| && k < |outcomes| && outcomes[k] == Cancelled
    requires forall i :: 0 <= i < k ==> outcomes[i] != Cancelled
    ensures var r := Drain(w, outcomes);
      && r.queue == w.queue[k + 1..] && !r.passActive && !r.gateHeld && r.inFlight == None
      && |r.log| == |w.log| + k + 1
      && r.log[..|w.log|] == w.log
      && (forall i :: 0 <= i < k ==> r.log[|w.log| + i] == Handled(w.queue[i], FateOf(outcomes[i])))
      && r.log[|w.log| + k] == Handled(w.queue[k], CancelledInWork)
    decreases k
  {
    var next := FinishWork(TakeNext(w), outcomes[0]);
    var r := Drain(w, outcomes);
    assert r == Drain(next, outcomes[1..]);
    if k > 0 {
      DrainStopsAtCancellation(next, outcomes[1..], k - 1);
      assert next.queue[k..] == w.queue[k + 1..];
      assert r.log[..|next.log|] == next.log;
      forall i | 0 <= i < k
        ensures r.log[|w.log| + i] == Handled(w.queue[i], FateOf(outcomes[i]))
      {
        if i > 0 {
          assert r.log[|next.log| + (i - 1)] == Handled(next.queue[i - 1], FateOf(outcomes[1..][i - 1]));
        }
      }
    }
  }

  // ---------------------------------------------------------------- scenarios

  /** Running two event sequences one after the other is running their
      concatenation. */
  lemma {:induction false} RunAppend(w: Worker, first: seq<Event>, second: seq<Event>)
    ensures Run(w, first + second) == Run(Run(w, first), second)
    decreases |first|
  {
    if |first| == 0 {
      assert first + second == second;
    } else {
      assert (first + second)[1..] == first[1..] + second;
      RunAppend(Next(w, first[0]), first[1..], second);
    }
  }

  /** A second run scheduled while the first WorkAsync call is still
      awaited is queued, not run alongside it and not given a pass of its
      own. Whether the first call completes or fails, the same pass then
      hands the second run over, both runs are handled in order, and nothing
      reaches the host. */
  lemma OverlappingRunIsQueued(t1: DateTime, t2: DateTime, first: WorkOutcome)
    requires first != Cancelled
    ensures var w := Run(Init(), [Tick(t1), Launch, Take, Wake, Tick(t2), Launch,
                                  Finish(first), Take, Finish(Completed), Take]);
      && w.log == [Handled(t1, FateOf(first)), Handled(t2, Succeeded)]
      && w.queue == [] && !w.passActive && !w.gateHeld && w.loop == Delaying
  {
    var firstHalf := [Tick(t1), Launch, Take, Wake, Tick(t2), Launch];
    var secondHalf := [Finish(first), Take, Finish(Completed), Take];
    assert firstHalf + secondHalf == [Tick(t1), Launch, Take, Wake, Tick(t2), Launch,
                                      Finish(first), Take, Finish(Completed), Take];
    RunAppend(Init(), firstHalf, secondHalf);
    SecondRunQueued(t1, t2);
    QueuedRunFollows(Run(Init(), firstHalf), t1, t2, first);
  }

  /** The first tick schedules a run, the launch starts a pass, and the pass
      hands that run to WorkAsync. */
  lemma FirstRunInFlight(t: DateTime)
    ensures var w := Run(Init(), [Tick(t), Launch, Take]);
      && w.log == [] && w.queue == [] && w.inFlight == Some(t)
      && w.passActive && w.gateHeld && !w.tokenCancelled && w.loop == Delaying
  {
    var events := [Tick(t), Launch, Take];
    var w1 := Next(Init(), events[0]);
    assert w1.queue == [t] && w1.loop == Launching;
    var w2 := Next(w1, events[1]);
    assert w2.passActive && w2.gateHeld && w2.loop == Delaying;
    var w3 := Next(w2, events[2]);
    assert w3.queue == [] && w3.inFlight == Some(t);
    assert Run(w3, events[3..]) == w3;
    assert Run(w2, events[2..]) == w3;
    assert Run(w1, events[1..]) == w3;
  }

  /** A tick while a call is in flight queues its run behind that call and
      leaves the pass as it was: no second pass starts. */
  lemma SecondTickQueues(w: Worker, t2: DateTime)
    requires w.log == [] && w.queue == [] && w.inFlight.Some?
    requires w.passActive && w.gateHeld && !w.tokenCancelled && w.loop == Delaying
    ensures var r := Run(w, [Wake, Tick(t2), Launch]);
      && r.log == [] && r.queue == [t2] && r.inFlight == w.inFlight
      && r.passActive && r.gateHeld && !r.tokenCancelled && r.loop == Delaying
  {
    var events := [Wake, Tick(t2), Launch];
    var w1 := Next(w, events[0]);
    assert w1.loop == AtCheck && w1 == w.(loop := AtCheck);
    var w2 := Next(w1, events[1]);
    assert w2.queue == [t2] && w2.loop == Launching;
    var w3 := Next(w2, events[2]);
    assert w3 == w2.(loop := Delaying);
    assert Run(w3, events[3..]) == w3;
    assert Run(w2, events[2..]) == w3;
    assert Run(w1, events[1..]) == w3;
  }

  /** The first half of that scenario: the second tick finds the pass active
      and queues its run behind the call in flight. */
  lemma SecondRunQueued(t1: DateTime, t2: DateTime)
    ensures var w := Run(Init(), [Tick(t1), Launch, Take, Wake, Tick(t2), Launch]);
      && w.log == [] && w.queue == [t2] && w.inFlight == Some(t1)
      && w.passActive && w.gateHeld && !w.tokenCancelled && w.loop == Delaying
  {
    var first := [Tick(t1), Launch, Take];
    var second := [Wake, Tick(t2), Launch];
    assert first + second == [Tick(t1), Launch, Take, Wake, Tick(t2), Launch];
    RunAppend(Init(), first, second);
    FirstRunInFlight(t1);
    SecondTickQueues(Run(Init(), first), t2);
  }

  /** The second half: the first call ends, the same pass takes the queued
      run, that call succeeds, and the pass ends and releases the gate. */
  lemma QueuedRunFollows(w: Worker, t1: DateTime, t2: DateTime, first: WorkOutcome)
    requires first != Cancelled
    requires w.log == [] && w.queue == [t2] && w.inFlight == Some(t1) && w.passActive && !w.tokenCancelled
    ensures var r := Run(w, [Finish(first), Take, Finish(Completed), Take]);
      && r.log == [Handled(t1, FateOf(first)), Handled(t2, Succeeded)]
      && r.queue == [] && !r.passActive && !r.gateHeld && r.loop == w.loop
  {
    var events := [Finish(first), Take, Finish(Completed), Take];
    var w1 := Next(w, events[0]);
    assert w1.log == [Handled(t1, FateOf(first))] && w1.passActive && w1.inFlight == None;
    var w2 := Next(w1, events[1]);
    assert w2.queue == [] && w2.inFlight == Some(t2);
    var w3 := Next(w2, events[2]);
    assert w3.log == [Handled(t1, FateOf(first)), Handled(t2, Succeeded)] && w3.passActive;
    var w4 := Next(w3, events[3]);
    assert !w4.passActive && !w4.gateHeld;
    assert Run(w4, events[4..]) == w4;
    assert Run(w3, events[3..]) == w4;
    assert Run(w2, events[2..]) == w4;
    assert Run(w1, events[1..]) == w4;
  }

  /** Cancelling while a call is in flight: the delay throws, the loop
      returns normally, the call ends cancelled, and the pass releases the
      gate. */
  lemma CancelWhileInFlight(w: Worker, t: DateTime)
    requires w.log == [] && w.inFlight == Some(t) && w.passActive && w.loop == Delaying
    ensures var r := Run(w, [Cancel, Wake, Finish(Cancelled)]);
      && r.loop == Returned && r.log == [Handled(t, CancelledInWork)]
      && !r.passActive && !r.gateHeld
  {
    var events := [Cancel, Wake, Finish(Cancelled)];
    var w1 := Next(w, events[0]);
    assert w1.tokenCancelled && w1.inFlight == Some(t) && w1.loop == Delaying;
    var w2 := Next(w1, events[1]);
    assert w2.loop == Returned && w2.inFlight == Some(t) && w2.log == [];
    var w3 := Next(w2, events[2]);
    assert w3.log == [Handled(t, CancelledInWork)];
    assert Run(w3, events[3..]) == w3;
    assert Run(w2, events[2..]) == w3;
    assert Run(w1, events[1..]) == w3;
  }

  /** Stopping while a run is in flight: the loop's delay throws, the loop
      absorbs the cancellation and returns normally, the run's WorkAsync
      call ends cancelled, and the gate is released. */
  lemma CancellationStopsGracefully(t: DateTime)
    ensures var w := Run(Init(), [Tick(t), Launch, Take, Cancel, Wake, Finish(Cancelled)]);
      && w.loop == Returned
      && w.log == [Handled(t, CancelledInWork)]
      && !w.passActive && !w.gateHeld
  {
    var first := [Tick(t), Launch, Take];
    var second := [Cancel, Wake, Finish(Cancelled)];
    assert first + second == [Tick(t), Launch, Take, Cancel, Wake, Finish(Cancelled)];
    RunAppend(Init(), first, second);
    FirstRunInFlight(t);
    CancelWhileInFlight(Run(Init(), first), t);
  }

  /** The token cancelled after the `while` check but before the launch lock
      is taken: the run is enqueued, the lock wait throws, the loop returns,
      and no pass ever handles the run. */
  lemma CancelBeforeLaunchStrandsRun(t: DateTime)
    ensures var w := Run(Init(), [Tick(t), Cancel, Launch]);
      && w.loop == Returned && w.queue == [t] && w.log == []
      && !w.passActive && !w.gateHeld
  {
    var events := [Tick(t), Cancel, Launch];
    var w1 := Next(Init(), events[0]);
    assert w1.queue == [t] && w1.loop == Launching;
    var w2 := Next(w1, events[1]);
    assert w2.tokenCancelled && w2.queue == [t];
    var w3 := Next(w2, events[2]);
    assert w3.loop == Returned && !w3.passActive && w3.queue == [t];
    assert Run(w3, events[3..]) == w3;
    assert Run(w2, events[2..]) == w3;
    assert Run(w1, events[1..]) == w3;
  }

  /** Once the loop has ended, ticks schedule nothing more. */
  lemma {:induction false} NoRunsAfterLoopEnds(w: Worker, events: seq<Event>)
    requires !Running(w.loop)
    ensures |Run(w, events).enqueued| == |w.enqueued|
    ensures !Running(Run(w, events).loop)
    decreases |events|
  {
    if |events| > 0 {
      NoRunsAfterLoopEnds(Next(w, events[0]), events[1..]);
    }
  }
}

=== FILE: clock.dfy ===
/** The parts of .NET's DateTime the core reads: calendar date and time of
    day to the second (sub-second ticks and DateTimeKind play no part). */
module Clock {

  datatype DateTime = DateTime(year: int, month: int, day: int, hour: int, minute: int, second: int)

  predicate IsLeapYear(year: int) {
    year % 4 == 0 && (year % 100 != 0 || year % 400 == 0)
  }

  function DaysInMonth(year: int, month: int): (days: int)
    requires 1 <= month <= 12
    ensures 28 <= days <= 31
  {
    if month == 2 then (if IsLeapYear(year) then 29 else 28)
    else if month == 4 || month == 6 || month == 9 || month == 11 then 30
    else 31
  }

  /** Every DateTime value .NET can represent: years 1 through 9999. */
  predicate Valid(dt: DateTime) {
    && 1 <= dt.year <= 9999
    && 1 <= dt.month <= 12
    && 1 <= dt.day <= DaysInMonth(dt.year, dt.month)
    && 0 <= dt.hour < 24
    && 0 <= dt.minute < 60
    && 0 <= dt.second < 60
  }
}

=== FILE: csv_exporter.dfy ===
/** CsvExporter: the report's file name and its text. Writing the file,
    creating the folder and retrying the write are I/O and not modelled. */
module CsvExporter {
  import opened Wrappers
  import opened BoundedInts
  import opened Clock
  import opened NumberFormat
  import opened Text
  import opened PowerPositions

  /** The exporter settings that shape the text. OutputFolder only chooses
      where the file goes. DecimalPlaces is the precision of "F<n>". */
  datatype CsvExporterSettings = CsvExporterSettings(separator: string, decimalPlaces: nat)

  const DEFAULT_SETTINGS: CsvExporterSettings := CsvExporterSettings(";", 3)

  const FILE_PREFIX: string := "PowerPosition_"
  const FILE_EXTENSION: string := ".csv"
  const FILE_NAME_LENGTH: int := 31

  // ---------------------------------------------------------------- file name

  /** "yyyyMMdd" */
  function DatePart(createdAt: DateTime): (s: string)
    requires Valid(createdAt)
    ensures |s| == 8
  {
    ZeroPad(createdAt.year, 4) + ZeroPad(createdAt.month, 2) + ZeroPad(createdAt.day, 2)
  }

  /** "HHmm" */
  function TimePart(createdAt: DateTime): (s: string)
    requires Valid(createdAt)
    ensures |s| == 4
  {
    ZeroPad(createdAt.hour, 2) + ZeroPad(createdAt.minute, 2)
  }

  /** "PowerPosition_yyyyMMdd_HHmm.csv". Every field is fixed width, since a
      DateTime year never exceeds 9999, so every name has 31 characters. */
  function GenerateFileName(createdAt: DateTime): (name: string)
    requires Valid(createdAt)
    ensures |name| == FILE_NAME_LENGTH
    ensures name[..14] == FILE_PREFIX && name[22] == '_' && name[27..] == FILE_EXTENSION
    ensures AllDigits(name[14..22]) && AllDigits(name[23..27])
  {
    FILE_PREFIX + DatePart(createdAt) + "_" + TimePart(createdAt) + FILE_EXTENSION
  }

  /** What a file name records of its creation time: the minute. */
  datatype FileStamp = FileStamp(year: int, month: int, day: int, hour: int, minute: int)

  function StampOf(createdAt: DateTime): FileStamp {
    FileStamp(createdAt.year, createdAt.month, createdAt.day, createdAt.hour, createdAt.minute)
  }

  /** Reads the creation minute back out of a report file name. */
  function ParseFileName(name: string): Option<FileStamp> {
    if && |name| == FILE_NAME_LENGTH && name[..14] == FILE_PREFIX && name[22] == '_' && name[27..] == FILE_EXTENSION
       && AllDigits(name[14..18]) && AllDigits(name[18..20]) && AllDigits(name[20..22])
       && AllDigits(name[23..25]) && AllDigits(name[25..27])
    then
      Some(FileStamp(
        ParseDigits(name[14..18]), ParseDigits(name[18..20]), ParseDigits(name[20..22]),
        ParseDigits(name[23..25]), ParseDigits(name[25..27])))
    else None
  }

  lemma FileNameRoundTrip(createdAt: DateTime)
    requires Valid(createdAt)
    ensures ParseFileName(GenerateFileName(createdAt)) == Some(StampOf(createdAt))
  {
    var name := GenerateFileName(createdAt);
    assert name[14..18] == ZeroPad(createdAt.year, 4);
    assert name[18..20] == ZeroPad(createdAt.month, 2);
    assert name[20..22] == ZeroPad(createdAt.day, 2);
    assert name[23..25] == ZeroPad(createdAt.hour, 2);
    assert name[25..27] == ZeroPad(createdAt.minute, 2);
  }

  /** Two runs write the same file exactly when they fall in the same minute. */
  lemma FileNameCollision(a: DateTime, b: DateTime)
    requires Valid(a) && Valid(b)
    ensures GenerateFileName(a) == GenerateFileName(b) <==> StampOf(a) == StampOf(b)
  {
    FileNameRoundTrip(a);
    FileNameRoundTrip(b);
  }

  // ---------------------------------------------------------------- content

  /** "Local Time", the separator, "Volume": the two column titles. */
  function HeaderLine(settings: CsvExporterSettings): (header: string)
    ensures |header| == 16 + |settings.separator|
    ensures header[..10] == "Local Time" && header[10..10 + |settings.separator|] == settings.separator
    ensures header[10 + |settings.separator|..] == "Volume"
  {
    "Local Time" + settings.separator + "Volume"
  }

  /** "HH:00" via "D2": two digits for the hours of a day. */
  function TimeLabel(hour: int32): (text: string)
    ensures 0 <= hour <= 23 ==> |text| == 5 && AllDigits(text[..2]) && text[2..] == ":00"
  {
    FormatD(hour as int, 2) + ":00"
  }

  /** One record: the period's hour, the separator, the volume in "F<n>". */
  function RecordLine(position: PowerPosition, settings: CsvExporterSettings): (line: string)
    ensures 1 <= position.period <= 24 ==>
              && |line| == 5 + |settings.separator| + |FormatF(position.volume, settings.decimalPlaces)|
              && AllDigits(line[..2]) && line[2..5] == ":00"
              && line[5..5 + |settings.separator|] == settings.separator
  {
    TimeLabel(Hour(position.period)) + settings.separator + FormatF(position.volume, settings.decimalPlaces)
  }

  /** Reads a record line back into its hour and volume. */
  function ParseRecord(line: string, settings: CsvExporterSettings): Option<(int, int)> {
    var volumeStart := 5 + |settings.separator|;
    if volumeStart <= |line| && AllDigits(line[..2]) && line[2..5] == ":00"
       && line[5..volumeStart] == settings.separator
    then
      match ParseF(line[volumeStart..], settings.decimalPlaces)
      case Some(volume) => Some((ParseDigits(line[..2]) as int, volume))
      case None => None
    else None
  }

  /** A record of a period of the day reads back as that period's hour and
      its exact volume, whatever the separator. */
  lemma RecordRoundTrip(position: PowerPosition, settings: CsvExporterSettings)
    requires 1 <= position.period <= 24
    ensures ParseRecord(RecordLine(position, settings), settings)
            == Some((Hour(position.period) as int, position.volume))
  {
    var hour := Hour(position.period);
    var timeLabel := TimeLabel(hour);
    var volume := FormatF(position.volume, settings.decimalPlaces);
    var line := RecordLine(position, settings);
    assert line == timeLabel + settings.separator + volume;
    assert line[..2] == timeLabel[..2] == ZeroPad(hour as int, 2);
    assert line[2..5] == ":00";
    assert line[5..5 + |settings.separator|] == settings.separator;
    assert line[5 + |settings.separator|..] == volume;
    FormatFRoundTrip(position.volume, settings.decimalPlaces);
  }

  /** The lines of the report: a header, then one record per position in
      the order given. */
  function CsvLines(positions: seq<PowerPosition>, settings: CsvExporterSettings): (lines: seq<string>)
    ensures |lines| == |positions| + 1
    ensures lines[0] == HeaderLine(settings)
  {
    if |positions| == 0 then [HeaderLine(settings)]
    else CsvLines(positions[..|positions| - 1], settings) + [RecordLine(positions[|positions| - 1], settings)]
  }

  /** The record of position i is line i + 1. */
  lemma {:induction false} CsvLineAt(positions: seq<PowerPosition>, settings: CsvExporterSettings, i: nat)
    requires i < |positions|
    ensures CsvLines(positions, settings)[i + 1] == RecordLine(positions[i], settings)
    decreases |positions|
  {
    if i < |positions| - 1 {
      var init := positions[..|positions| - 1];
      CsvLineAt(init, settings, i);
      assert init[i] == positions[i];
    }
  }

  /** One record per position, in the order of the positions. */
  lemma CsvLinesInOrder(positions: seq<PowerPosition>, settings: CsvExporterSettings)
    ensures forall i :: 0 <= i < |positions| ==> CsvLines(positions, settings)[i + 1] == RecordLine(positions[i], settings)
  {
    forall i | 0 <= i < |positions|
      ensures CsvLines(positions, settings)[i + 1] == RecordLine(positions[i], settings)
    {
      CsvLineAt(positions, settings, i);
    }
  }

  /** The text of AppendLine applied to each line in turn. */
  function Unlines(lines: seq<string>, newLine: string): (text: string)
    ensures |text| >= |lines| * |newLine|
    ensures 0 < |lines| ==> lines[0] + newLine <= text
    ensures 0 < |lines| ==> text[|text| - |newLine|..] == newLine
  {
    if |lines| == 0 then [] else Unlines(lines[..|lines| - 1], newLine) + lines[|lines| - 1] + newLine
  }

  lemma UnlinesAppend(lines: seq<string>, line: string, newLine: string)
    ensures Unlines(lines + [line], newLine) == Unlines(lines, newLine) + line + newLine
  {
    assert (lines + [line])[..|lines|] == lines;
  }

  lemma CsvLinesAppend(positions: seq<PowerPosition>, position: PowerPosition, settings: CsvExporterSettings)
    ensures CsvLines(positions + [position], settings) == CsvLines(positions, settings) + [RecordLine(position, settings)]
  {
    assert (positions + [position])[..|positions|] == positions;
  }

  /** One turn of GetCsvContent's loop appends one record line. */
  lemma ContentStep(positions: seq<PowerPosition>, i: nat, settings: CsvExporterSettings, newLine: string)
    requires i < |positions|
    ensures Unlines(CsvLines(positions[..i + 1], settings), newLine)
            == Unlines(CsvLines(positions[..i], settings), newLine) + RecordLine(positions[i], settings) + newLine
  {
    assert positions[..i + 1] == positions[..i] + [positions[i]];
    CsvLinesAppend(positions[..i], positions[i], settings);
    UnlinesAppend(CsvLines(positions[..i], settings), RecordLine(positions[i], settings), newLine);
  }

  /** GetCsvContent, with the StringBuilder's AppendLine calls spelled out;
      `newLine` is the platform's Environment.NewLine. */
  method GetCsvContent(positions: Option<seq<PowerPosition>>, settings: CsvExporterSettings, newLine: string)
    returns (r: Result<string, ArgumentError>)
    ensures positions.None? ==> r == Failure(ArgumentNull("powerPositions"))
    ensures positions.Some? ==> r == Success(Unlines(CsvLines(positions.value, settings), newLine))
  {
    if positions.None? {
      return Failure(ArgumentNull("powerPositions"));
    }
    var ps := positions.value;
    var content := HeaderLine(settings) + newLine;
    UnlinesAppend([], HeaderLine(settings), newLine);
    assert ps[..0] == [];
    var i := 0;
    while i < |ps|
      invariant 0 <= i <= |ps|
      invariant content == Unlines(CsvLines(ps[..i], settings), newLine)
    {
      ContentStep(ps, i, settings, newLine);
      content := content + RecordLine(ps[i], settings) + newLine;
      i := i + 1;
    }
    assert ps[..|ps|] == ps;
    r := Success(content);
  }

  // ---------------------------------------------------------------- reading back

  /** AppendLine over two lists in turn writes the two texts one after the
      other. */
  lemma {:induction false} UnlinesConcat(a: seq<string>, b: seq<string>, newLine: string)
    ensures Unlines(a + b, newLine) == Unlines(a, newLine) + Unlines(b, newLine)
    decreases |b|
  {
    if |b| == 0 {
      assert a + b == a;
    } else {
      var init := b[..|b| - 1];
      var last := b[|b| - 1];
      assert a + b == (a + init) + [last];
      assert b == init + [last];
      UnlinesConcat(a, init, newLine);
      UnlinesAppend(a + init, last, newLine);
      UnlinesAppend(init, last, newLine);
    }
  }

  /** AppendLine read from the front: the first line and its terminator,
      then the rest. */
  lemma UnlinesCons(lines: seq<string>, newLine: string)
    requires 0 < |lines|
    ensures Unlines(lines, newLine) == lines[0] + newLine + Unlines(lines[1..], newLine)
  {
    var head, tail := lines[0], lines[1..];
    assert lines == [head] + tail;
    UnlinesConcat([head], tail, newLine);
    assert [head][..0] == [];
    assert Unlines([head], newLine) == head + newLine;
  }

  /** Lines free of line breaks, each ended by "\n" or "\r\n", read back
      with File.ReadAllLines as exactly those lines. */
  lemma {:induction false} UnlinesReadsBack(lines: seq<string>, newLine: string)
    requires newLine == "\n" || newLine == "\r\n"
    requires forall i :: 0 <= i < |lines| ==> NoLineBreak(lines[i])
    ensures SplitLines(Unlines(lines, newLine)) == lines
    decreases |lines|
  {
    if |lines| > 0 {
      var rest := Unlines(lines[1..], newLine);
      UnlinesCons(lines, newLine);
      ReadLineOf(lines[0], newLine, rest);
      UnlinesReadsBack(lines[1..], newLine);
      assert [lines[0]] + lines[1..] == lines;
    }
  }

  /** The header holds a line-break character only where the separator
      does. */
  lemma HeaderAvoids(settings: CsvExporterSettings, c: char)
    requires IsLineBreak(c)
    requires Avoids(settings.separator, c)
    ensures Avoids(HeaderLine(settings), c)
  {
    var header := HeaderLine(settings);
    var n := |settings.separator|;
    forall k | 0 <= k < |header|
      ensures header[k] != c
    {
      if 10 <= k < 10 + n {
        assert header[k] == settings.separator[k - 10];
      }
    }
  }

  /** A record holds a line-break character only where the separator does,
      whatever the period and volume. */
  lemma RecordAvoids(position: PowerPosition, settings: CsvExporterSettings, c: char)
    requires IsLineBreak(c)
    requires Avoids(settings.separator, c)
    ensures Avoids(RecordLine(position, settings), c)
  {
    var digits := FormatD(Hour(position.period) as int, 2);
    var volume := FormatF(position.volume, settings.decimalPlaces);
    var line := RecordLine(position, settings);
    var a := |digits| + 3;
    var b := a + |settings.separator|;
    assert line == digits + ":00" + settings.separator + volume;
    forall k | 0 <= k < |line|
      ensures line[k] != c
    {
      if k < |digits| {
        assert line[k] == digits[k];
      } else if k < a {
        assert line[k] == ":00"[k - |digits|];
      } else if k < b {
        assert line[k] == settings.separator[k - a];
      } else {
        assert line[k] == volume[k - b];
      }
    }
  }

  /** Line i of the report holds the line-break character c only where the
      separator does. */
  lemma CsvLineAvoids(positions: seq<PowerPosition>, settings: CsvExporterSettings, i: nat, c: char)
    requires IsLineBreak(c)
    requires Avoids(settings.separator, c)
    requires i <= |positions|
    ensures Avoids(CsvLines(positions, settings)[i], c)
  {
    if i == 0 {
      HeaderAvoids(settings, c);
    } else {
      CsvLineAt(positions, settings, i - 1);
      RecordAvoids(positions[i - 1], settings, c);
    }
  }

  /** The file GetCsvContent's text is written to reads back, line by line,
      as the header and then each record in order, when the separator holds
      neither '\r' nor '\n' and the platform terminator is "\n" or "\r\n". */
  lemma ContentReadsBack(positions: seq<PowerPosition>, settings: CsvExporterSettings, newLine: string)
    requires newLine == "\n" || newLine == "\r\n"
    requires NoLineBreak(settings.separator)
    ensures SplitLines(Unlines(CsvLines(positions, settings), newLine)) == CsvLines(positions, settings)
  {
    var lines := CsvLines(positions, settings);
    forall i | 0 <= i < |lines|
      ensures NoLineBreak(lines[i])
    {
      CsvLineHasNoLineBreak(positions, settings, i);
    }
    UnlinesReadsBack(lines, newLine);
  }

  lemma CsvLineHasNoLineBreak(positions: seq<PowerPosition>, settings: CsvExporterSettings, i: nat)
    requires NoLineBreak(settings.separator)
    requires i <= |positions|
    ensures NoLineBreak(CsvLines(positions, settings)[i])
  {
    CsvLineAvoids(positions, settings, i, '\r');
    CsvLineAvoids(positions, settings, i, '\n');
  }

  // ---------------------------------------------------------------- line count

  /** With "\n" or "\r\n" as the line terminator and a separator free of
      line feeds, the text holds exactly one line feed per position plus
      one for the header. A '\r' in the separator would still split a
      record when the file is read back; ContentReadsBack rules that out. */
  lemma {:induction false} LineBreakCount(positions: seq<PowerPosition>, settings: CsvExporterSettings, newLine: string)
    requires newLine == "\n" || newLine == "\r\n"
    requires '\n' !in settings.separator
    ensures CountChar('\n', Unlines(CsvLines(positions, settings), newLine)) == |positions| + 1
  {
    var lines := CsvLines(positions, settings);
    forall i | 0 <= i < |lines|
      ensures CountChar('\n', lines[i]) == 0
    {
      CsvLineAvoids(positions, settings, i, '\n');
      CountCharAbsent('\n', lines[i]);
    }
    TerminatorHasOneLineFeed(newLine);
    UnlinesCount(lines, newLine);
  }

  lemma TerminatorHasOneLineFeed(newLine: string)
    requires newLine == "\n" || newLine == "\r\n"
    ensures CountChar('\n', newLine) == 1
  {
    if newLine == "\r\n" {
      assert newLine[..1] == "\r";
      assert newLine[..1][..0] == "";
    } else {
      assert newLine[..0] == "";
    }
  }

  lemma {:induction false} UnlinesCount(lines: seq<string>, newLine: string)
    requires CountChar('\n', newLine) == 1
    requires forall i :: 0 <= i < |lines| ==> CountChar('\n', lines[i]) == 0
    ensures CountChar('\n', Unlines(lines, newLine)) == |lines|
    decreases |lines|
  {
    if |lines| > 0 {
      var init := lines[..|lines| - 1];
      var last := lines[|lines| - 1];
      UnlinesCount(init, newLine);
      CountCharAppend('\n', Unlines(init, newLine), last);
      CountCharAppend('\n', Unlines(init, newLine) + last, newLine);
    }
  }

  // ---------------------------------------------------------------- example

  /** The exporter example: 2025-06-17 21:34 and two positions with the
      default settings. */
  lemma ExportExampleFileName()
    ensures GenerateFileName(DateTime(2025, 6, 17, 21, 34, 0)) == "PowerPosition_20250617_2134.csv"
  {
    ExampleDateFields();
  }

  lemma ExampleDateFields()
    ensures ZeroPad(2025, 4) == "2025" && ZeroPad(6, 2) == "06" && ZeroPad(17, 2) == "17"
    ensures ZeroPad(21, 2) == "21" && ZeroPad(34, 2) == "34"
  {
    assert Digits(2025) == "2025" by {
      assert Digits(2) == "2";
      assert Digits(20) == "20";
      assert Digits(202) == "202";
    }
    assert Digits(17) == "17" by {
      assert Digits(1) == "1";
    }
    assert Digits(21) == "21" by {
      assert Digits(2) == "2";
    }
    assert Digits(34) == "34" by {
      assert Digits(3) == "3";
    }
  }

  lemma ExportExampleLines()
    ensures CsvLines([PowerPosition(1, 100), PowerPosition(2, 150)], DEFAULT_SETTINGS)
            == ["Local Time;Volume", "23:00;100.000", "00:00;150.000"]
  {
    ExampleRecords();
    var lines := CsvLines([PowerPosition(1, 100), PowerPosition(2, 150)], DEFAULT_SETTINGS);
    assert lines[0] == "Local Time;Volume";
    assert lines[1] == "23:00;100.000";
    assert lines[2] == "00:00;150.000";
  }

  lemma ExampleRecords()
    ensures RecordLine(PowerPosition(1, 100), DEFAULT_SETTINGS) == "23:00;100.000"
    ensures RecordLine(PowerPosition(2, 150), DEFAULT_SETTINGS) == "00:00;150.000"
  {
    ExampleTimeLabels();
    ExampleVolumes();
    assert Hour(1) == 23 && Hour(2) == 0;
  }

  lemma ExampleTimeLabels()
    ensures TimeLabel(23) == "23:00" && TimeLabel(0) == "00:00"
  {
    assert Digits(23) == "23" by {
      assert Digits(2) == "2";
    }
    assert ZeroPad(0, 2) == "00";
  }

  lemma ExampleVolumes()
    ensures FormatF(100, 3) == "100.000" && FormatF(150, 3) == "150.000"
  {
    assert Digits(100) == "100" by {
      assert Digits(1) == "1";
      assert Digits(10) == "10";
    }
    assert Digits(150) == "150" by {
      assert Digits(1) == "1";
      assert Digits(15) == "15";
    }
    assert Zeros(3) == "000";
  }
}

=== FILE: intra_day_report.dfy ===
/** IntraDayReportService's transform and load halves composed: the trades
    of a day, aggregated by hour and rendered as the report's lines. */
module IntraDayReport {
  import opened Wrappers
  import opened PowerPositions
  import opened PowerPositionAggregator
  import opened CsvExporter

  /** The lines of the report written for a set of trades. */
  function ReportLines(trades: Option<seq<PowerTrade>>, settings: CsvExporterSettings): (r: Result<seq<string>, ArgumentError>)
    ensures trades.None? ==> r == Failure(ArgumentNull("trades"))
    ensures trades.Some? ==> r.Success? && |r.value| == PERIODS_PER_DAY + 1 && r.value[0] == HeaderLine(settings)
  {
    match AggregateByHour(trades)
    case Failure(e) => Failure(e)
    case Success(positions) => Success(CsvLines(positions, settings))
  }

  /** Every report has a header and 24 records; they read back, in order, as
      hours 23, 0, 1, ..., 22 with each period's total volume. */
  lemma ReportReadsBack(trades: seq<PowerTrade>, settings: CsvExporterSettings)
    ensures ReportLines(None, settings) == Failure(ArgumentNull("trades"))
    ensures var r := ReportLines(Some(trades), settings);
      && r.Success? && |r.value| == 25 && r.value[0] == HeaderLine(settings)
      && forall i :: 0 <= i < PERIODS_PER_DAY ==>
           ParseRecord(r.value[i + 1], settings)
           == Some((if i == 0 then 23 else i - 1, SumFor(Flatten(trades), PeriodAt(i))))
  {
    var positions := AggregateByHour(Some(trades)).value;
    forall i | 0 <= i < PERIODS_PER_DAY
      ensures ParseRecord(CsvLines(positions, settings)[i + 1], settings)
              == Some((if i == 0 then 23 else i - 1, SumFor(Flatten(trades), PeriodAt(i))))
    {
      RecordReadsBack(trades, settings, i);
    }
  }

  /** Line i + 1 of the report reads back as period i + 1's hour and total. */
  lemma RecordReadsBack(trades: seq<PowerTrade>, settings: CsvExporterSettings, i: nat)
    requires i < PERIODS_PER_DAY
    ensures var positions := AggregateByHour(Some(trades)).value;
      ParseRecord(CsvLines(positions, settings)[i + 1], settings)
      == Some((if i == 0 then 23 else i - 1, SumFor(Flatten(trades), PeriodAt(i))))
  {
    var positions := AggregateByHour(Some(trades)).value;
    var position := positions[i];
    assert position == PowerPosition(PeriodAt(i), SumFor(Flatten(trades), PeriodAt(i)));
    CsvLineAt(positions, settings, i);
    RecordRoundTrip(position, settings);
    assert Hour(position.period) as int == if i == 0 then 23 else i - 1;
  }
}

=== FILE: number_format.dfy ===
/** The .NET invariant-culture number formats the exporter uses: "D<n>"
    on integers, "F<n>" on integral volumes, and the date-field padding of
    "yyyy", "MM", "dd", "HH" and "mm". Each format has a parser as its
    inverse, so that what is written can be shown to read back. */
module NumberFormat {
  import opened Wrappers
  import opened Text

  predicate IsDigit(c: char) {
    '0' <= c <= '9'
  }

  predicate AllDigits(s: string) {
    forall i :: 0 <= i < |s| ==> IsDigit(s[i])
  }

  /** The characters a formatted number may contain. */
  predicate IsNumeric(s: string) {
    forall i :: 0 <= i < |s| ==> IsDigit(s[i]) || s[i] == '-' || s[i] == '.'
  }

  /** Decimal digits, optionally preceded by a single '-'. */
  predicate IsSignedDigits(s: string) {
    forall i :: 0 <= i < |s| ==> IsDigit(s[i]) || (i == 0 && s[i] == '-')
  }

  function Abs(n: int): nat {
    if n < 0 then -n else n
  }

  /** The width of the minus sign of n: 1 when n is negative, else 0. */
  function SignWidth(n: int): nat {
    if n < 0 then 1 else 0
  }

  function Max(a: nat, b: nat): nat {
    if a < b then b else a
  }

  function DigitChar(d: nat): (c: char)
    requires d < 10
    ensures IsDigit(c)
  {
    ('0' as int + d) as char
  }

  function DigitValue(c: char): (d: nat)
    requires IsDigit(c)
    ensures d < 10 && DigitChar(d) == c
  {
    c as int - '0' as int
  }

  function Pow10(k: nat): (p: nat)
    ensures p >= 1
  {
    if k == 0 then 1 else 10 * Pow10(k - 1)
  }

  /** The decimal digits of n, most significant first, without leading
      zeros ("0" for zero). */
  function Digits(n: nat): (s: string)
    ensures 1 <= |s| && AllDigits(s)
    ensures 1 < |s| ==> s[0] != '0'
    decreases n
  {
    if n < 10 then [DigitChar(n)] else Digits(n / 10) + [DigitChar(n % 10)]
  }

  /** Reads a string of decimal digits (the empty string reads as 0). */
  function ParseDigits(s: string): nat
    requires AllDigits(s)
  {
    if |s| == 0 then 0 else 10 * ParseDigits(s[..|s| - 1]) + DigitValue(s[|s| - 1])
  }

  lemma {:induction false} DigitsRoundTrip(n: nat)
    ensures ParseDigits(Digits(n)) == n
    decreases n
  {
    if n >= 10 {
      var s := Digits(n);
      assert s[..|s| - 1] == Digits(n / 10);
      DigitsRoundTrip(n / 10);
    }
  }

  /** A number below 10^k has at most k digits. */
  lemma {:induction false} DigitsLength(n: nat, k: nat)
    requires 1 <= k && n < Pow10(k)
    ensures |Digits(n)| <= k
    decreases k
  {
    if n >= 10 {
      assert k >= 2;
      assert n / 10 < Pow10(k - 1);
      DigitsLength(n / 10, k - 1);
    }
  }

  function Zeros(k: nat): (s: string)
    ensures |s| == k && AllDigits(s)
    ensures forall i :: 0 <= i < k ==> s[i] == '0'
  {
    seq(k, _ => '0')
  }

  /** Leading zeros do not change the value read. */
  lemma {:induction false} LeadingZeros(k: nat, s: string)
    requires AllDigits(s)
    ensures ParseDigits(Zeros(k) + s) == ParseDigits(s)
    decreases |s|
  {
    if |s| == 0 {
      assert Zeros(k) + s == Zeros(k);
      ZerosReadAsZero(k);
    } else {
      assert (Zeros(k) + s)[..|Zeros(k) + s| - 1] == Zeros(k) + s[..|s| - 1];
      LeadingZeros(k, s[..|s| - 1]);
    }
  }

  lemma {:induction false} ZerosReadAsZero(k: nat)
    ensures ParseDigits(Zeros(k)) == 0
    decreases k
  {
    if k > 0 {
      assert Zeros(k)[..k - 1] == Zeros(k - 1);
      ZerosReadAsZero(k - 1);
    }
  }

  /** The digits of n left-padded with '0' to at least `width` characters:
      "D<width>" on a non-negative value, and the date fields' padding. */
  function ZeroPad(n: nat, width: nat): (s: string)
    ensures 1 <= |s| && AllDigits(s)
    ensures width <= |s|
    ensures 1 <= width && n < Pow10(width) ==> |s| == width
    ensures |s| == Max(width, |Digits(n)|)
    ensures ParseDigits(s) == n
  {
    var digits := Digits(n);
    DigitsRoundTrip(n);
    assert 1 <= width && n < Pow10(width) ==> |digits| <= width by {
      if 1 <= width && n < Pow10(width) {
        DigitsLength(n, width);
      }
    }
    if |digits| < width then
      LeadingZeros(width - |digits|, digits);
      Zeros(width - |digits|) + digits
    else
      digits
  }

  /** .NET "D<width>": a '-' for a negative value, then the magnitude
      zero-padded to `width` digits. */
  function FormatD(n: int, width: nat): (s: string)
    ensures IsSignedDigits(s)
    ensures |s| == SignWidth(n) + Max(width, |Digits(Abs(n))|)
    ensures 0 < |s| && (s[0] == '-' <==> n < 0)
    ensures 1 <= width && 0 <= n < Pow10(width) ==> |s| == width
  {
    if n < 0 then "-" + ZeroPad(-n, width) else ZeroPad(n, width)
  }

  /** .NET "F<decimals>" on an integral value: the whole digits with a '-'
      when negative, then a '.' and `decimals` zeros unless decimals is 0.
      With its read-back (FormatFRoundTrip), the length fixes the text: no
      leading zeros and no "-0". */
  function FormatF(v: int, decimals: nat): (s: string)
    ensures IsNumeric(s)
    ensures |s| == SignWidth(v) + |Digits(Abs(v))| + (if decimals == 0 then 0 else decimals + 1)
    ensures 0 < |s| && (s[0] == '-' <==> v < 0)
    ensures CountChar('.', s) == if decimals == 0 then 0 else 1
  {
    var whole := FormatD(v, 1);
    assert whole == (if v < 0 then "-" else "") + ZeroPad(Abs(v), 1);
    CountCharAbsent('.', whole);
    if decimals == 0 then whole
    else
      CountCharAbsent('.', Zeros(decimals));
      CountCharAppend('.', whole, ".");
      CountCharAppend('.', whole + ".", Zeros(decimals));
      assert CountChar('.', ".") == 1 by {
        assert "."[..0] == "";
      }
      whole + "." + Zeros(decimals)
  }

  /** Reads an optionally negative decimal integer with at least one digit. */
  function ParseInteger(s: string): (r: Option<int>)
  {
    if 2 <= |s| && s[0] == '-' && AllDigits(s[1..]) then Some(-(ParseDigits(s[1..]) as int))
    else if 1 <= |s| && AllDigits(s) then Some(ParseDigits(s))
    else None
  }

  lemma FormatDRoundTrip(n: int, width: nat)
    ensures ParseInteger(FormatD(n, width)) == Some(n)
  {
    if n < 0 {
      var s := FormatD(n, width);
      assert s[1..] == ZeroPad(-n, width);
    }
  }

  /** Reads what FormatF writes: whole digits, then, when decimals > 0, a
      '.' followed by exactly `decimals` zeros. */
  function ParseF(s: string, decimals: nat): (r: Option<int>)
  {
    if decimals == 0 then ParseInteger(s)
    else if decimals < |s| && s[|s| - decimals - 1] == '.' && s[|s| - decimals..] == Zeros(decimals) then
      ParseInteger(s[..|s| - decimals - 1])
    else None
  }

  lemma FormatFRoundTrip(v: int, decimals: nat)
    ensures ParseF(FormatF(v, decimals), decimals) == Some(v)
  {
    var whole := FormatD(v, 1);
    FormatDRoundTrip(v, 1);
    if decimals > 0 {
      var s := FormatF(v, decimals);
      assert s == whole + "." + Zeros(decimals);
      assert s[..|s| - decimals - 1] == whole;
      assert s[|s| - decimals..] == Zeros(decimals);
    }
  }

  /** Two digit strings of the same length that read as the same number are
      the same string. */
  lemma {:induction false} SameDigitsSameValue(a: string, b: string)
    requires AllDigits(a) && AllDigits(b) && |a| == |b|
    requires ParseDigits(a) == ParseDigits(b)
    ensures a == b
    decreases |a|
  {
    if |a| > 0 {
      var k := |a| - 1;
      var pa, pb := a[..k], b[..k];
      var da, db := DigitValue(a[k]), DigitValue(b[k]);
      assert ParseDigits(a) == 10 * ParseDigits(pa) + da;
      assert ParseDigits(b) == 10 * ParseDigits(pb) + db;
      LastDigit(ParseDigits(pa), da, ParseDigits(pb), db);
      assert a[k] == DigitChar(da) == b[k];
      SameDigitsSameValue(pa, pb);
      assert a == pa + [a[k]] && b == pb + [b[k]];
    }
  }

  lemma LastDigit(x: nat, dx: nat, y: nat, dy: nat)
    requires dx < 10 && dy < 10 && 10 * x + dx == 10 * y + dy
    ensures x == y && dx == dy
  {
    assert (10 * x + dx) / 10 == x;
    assert (10 * y + dy) / 10 == y;
  }

  /** The only text of the length "D1" gives v that reads back as v is
      FormatD(v, 1): no leading zeros, no "-0". */
  lemma IntegerCanonical(v: int, w: string)
    requires ParseInteger(w) == Some(v)
    requires |w| == SignWidth(v) + |Digits(Abs(v))|
    ensures w == FormatD(v, 1)
  {
    DigitsRoundTrip(Abs(v));
    if 2 <= |w| && w[0] == '-' && AllDigits(w[1..]) {
      assert v == -(ParseDigits(w[1..]) as int);
      if v == 0 {
        assert false;
      }
      SameDigitsSameValue(w[1..], Digits(-v));
      assert w == [w[0]] + w[1..];
    } else {
      SameDigitsSameValue(w, Digits(v));
    }
  }

  /** FormatF's contract pins its text: any string of its length that reads
      back as v with the same precision is FormatF(v, decimals). */
  lemma FormatFCanonical(v: int, decimals: nat, s: string)
    requires ParseF(s, decimals) == Some(v)
    requires |s| == SignWidth(v) + |Digits(Abs(v))| + (if decimals == 0 then 0 else decimals + 1)
    ensures s == FormatF(v, decimals)
  {
    if decimals == 0 {
      IntegerCanonical(v, s);
    } else {
      var k := |s| - decimals - 1;
      IntegerCanonical(v, s[..k]);
      assert s == s[..k] + "." + s[k + 1..];
    }
  }
}

=== FILE: power_position.dfy ===
/** One row of the intra-day report: a settlement period and its volume,
    and the rule that places a period on the clock. */
module PowerPositions {
  import opened BoundedInts

  /** A settlement period (1..24 when the aggregator builds it) with its net
      volume. Volumes are exact integers where the source uses double. */
  datatype PowerPosition = PowerPosition(period: int32, volume: int)

  /** The clock hour a period starts at: the trading day starts at 23:00 of
      the previous day, so period 1 is hour 23 and every other period p is
      hour p - 2, computed with C#'s wrapping int subtraction. */
  function Hour(period: int32): (hour: int32)
    ensures period == 1 ==> hour == 23
    ensures period != 1 && INT32_MIN + 2 <= period as int ==> hour as int == period as int - 2
    ensures 1 <= period <= 24 ==> 0 <= hour <= 23
  {
    if period == 1 then 23 else Wrap(period as int - 2)
  }

  /** The inverse mapping on a day: the period that starts at a given hour. */
  function PeriodOfHour(hour: int32): (period: int32)
    requires 0 <= hour <= 23
    ensures 1 <= period <= 24
  {
    if hour == 23 then 1 else hour + 2
  }

  lemma HourRoundTrip(period: int32)
    requires 1 <= period <= 24
    ensures PeriodOfHour(Hour(period)) == period
  {
  }

  lemma PeriodRoundTrip(hour: int32)
    requires 0 <= hour <= 23
    ensures Hour(PeriodOfHour(hour)) == hour
  {
  }

  /** No two periods of a day share an hour: on 1..24 the mapping is a
      bijection onto 0..23 (with PeriodOfHour as its inverse). */
  lemma HourInjective(p: int32, q: int32)
    requires 1 <= p <= 24 && 1 <= q <= 24
    ensures Hour(p) == Hour(q) <==> p == q
  {
    HourRoundTrip(p);
    HourRoundTrip(q);
  }

  /** Outside a day the subtraction wraps: the smallest int maps near the top. */
  lemma HourWrapsAtIntMinimum()
    ensures Hour(INT32_MIN as int32) as int == INT32_MAX - 1
  {
  }
}

=== FILE: text.dfy ===
/** Character counting over strings, used to state what a piece of text
    does and does not contain. */
module Text {

  function CountChar(c: char, s: string): (n: nat)
    ensures n <= |s|
  {
    if |s| == 0 then 0 else CountChar(c, s[..|s| - 1]) + (if s[|s| - 1] == c then 1 else 0)
  }

  lemma {:induction false} CountCharAppend(c: char, a: string, b: string)
    ensures CountChar(c, a + b) == CountChar(c, a) + CountChar(c, b)
    decreases |b|
  {
    if |b| == 0 {
      assert a + b == a;
    } else {
      assert (a + b)[..|a + b| - 1] == a + b[..|b| - 1];
      CountCharAppend(c, a, b[..|b| - 1]);
    }
  }

  /** The character c occurs nowhere in s. */
  predicate Avoids(s: string, c: char) {
    forall k :: 0 <= k < |s| ==> s[k] != c
  }

  /** A character that occurs nowhere in s is counted zero times. */
  lemma {:induction false} CountCharAbsent(c: char, s: string)
    requires forall i :: 0 <= i < |s| ==> s[i] != c
    ensures CountChar(c, s) == 0
    decreases |s|
  {
    if |s| > 0 {
      CountCharAbsent(c, s[..|s| - 1]);
    }
  }

  // ---------------------------------------------------------------- reading lines

  /** The two characters File.ReadAllLines treats as ending a line. */
  predicate IsLineBreak(c: char) {
    c == '\r' || c == '\n'
  }

  predicate NoLineBreak(s: string) {
    forall i :: 0 <= i < |s| ==> !IsLineBreak(s[i])
  }

  /** One line read from the front of a text, as StreamReader.ReadLine reads
      it: the characters up to the first "\r\n", "\n" or "\r", and the text
      after that terminator. A last line without a terminator is the rest
      of the text. */
  function ReadLine(text: string): (r: (string, string))
    ensures NoLineBreak(r.0) && |r.0| <= |text| && r.0 == text[..|r.0|]
    ensures 0 < |text| ==> |r.1| < |text|
  {
    if |text| == 0 then ("", "")
    else if text[0] == '\n' then ("", text[1..])
    else if text[0] == '\r' then
      if 1 < |text| && text[1] == '\n' then ("", text[2..]) else ("", text[1..])
    else
      var (line, rest) := ReadLine(text[1..]);
      ([text[0]] + line, rest)
  }

  /** File.ReadAllLines: the lines of a text, with no empty line after a
      final terminator. */
  function SplitLines(text: string): (lines: seq<string>)
    ensures |text| == 0 <==> |lines| == 0
    decreases |text|
  {
    if |text| == 0 then [] else [ReadLine(text).0] + SplitLines(ReadLine(text).1)
  }

  /** A line free of line breaks, ended by "\n" or "\r\n", is read back
      whole, and reading resumes just after its terminator. */
  lemma {:induction false} ReadLineOf(line: string, newLine: string, rest: string)
    requires NoLineBreak(line)
    requires newLine == "\n" || newLine == "\r\n"
    ensures ReadLine(line + newLine + rest) == (line, rest)
    decreases |line|
  {
    var text := line + newLine + rest;
    if |line| == 0 {
      assert text == newLine + rest;
      if newLine == "\n" {
        assert text[1..] == rest;
      } else {
        assert text[0] == '\r' && text[1] == '\n';
        assert text[2..] == rest;
      }
    } else {
      assert text[0] == line[0] && !IsLineBreak(line[0]);
      assert text[1..] == line[1..] + newLine + rest;
      ReadLineOf(line[1..], newLine, rest);
      assert [line[0]] + line[1..] == line;
    }
  }
}

=== FILE: wrappers.dfy ===
/** Failure-carrying values: the model's stand-in for a null reference
    argument and for the ArgumentNullException a method throws on it. */
module Wrappers {

  /** A reference that may be null. */
  datatype Option<+T> = None | Some(value: T)

  /** Either the value a method returns or the exception it throws. */
  datatype Result<+T, +E> = Success(value: T) | Failure(error: E)

  /** The one exception the modelled methods throw themselves:
      ArgumentNullException, carrying the offending parameter's name. */
  datatype ArgumentError = ArgumentNull(paramName: string)
}
